=== FILE: README.md ===
# Wedding-memories media uploader, modelled in Dafny

The system is a small photo and video sharing service. It has two parts.

- An Express back end keeps an in-memory index of uploaded files. Each upload goes through a multer stage:
  - a MIME-type filter;
  - a 500 MiB size limit;
  - a temporary file whose name is built from the clock, a random draw and the original name.

  The upload handler then pushes the temporary file to Cloudinary and records the result. The back end can also list and delete records and build optimised-image URLs.
- A React uploader keeps a list of upload entries. It updates each entry as its upload progresses, succeeds or fails.

This project models both parts as pure functions over immutable data.

- **Handlers.** Each route handler is a function from the index, the request and what the media provider answered, to an `Exchange`. The exchange holds the new index, the JSON response and the side effects in order: temporary file created or unlinked, provider upload, destroy or URL call. Provider calls are therefore inputs (`Settled` values) and recorded outputs (`Effect` values), never executed.
- **Parameters.** `Date.now()`, `Math.random()` and `new Date().toISOString()` are passed in (`UploadEnv`).
- **Uploader.** The client's state updates are functions on the entry list. Each takes the entry position as an explicit argument.

Modules:

| module | what it holds |
|---|---|
| `Basics` | `Option`, `Settled`, `startsWith`/`endsWith`, JavaScript truthiness and `||` on strings |
| `Utf8` | UTF-8 encoding and decoding (RFC 3629) with U+FFFD replacement per maximal subpart, and Node's `latin1` byte conversion |
| `PosixPath` | Node's POSIX `path.basename` (with and without a suffix) and `path.extname` |
| `JsText` | decimal rendering of integers, `String.prototype.substring`, JavaScript white space and `parseInt` |
| `UploadIndex` | the metadata record, the index, the size total, `findIndex` and `splice` |
| `Http` | responses, bodies, upload options, effects and exchanges |
| `Admission` | the file filter, the temporary name, the size limit and the error middleware |
| `Handlers` | `GET /files`, `POST /upload`, `DELETE /files/:cloudinaryId`, `GET /optimize/:cloudinaryId` |
| `Server` | request dispatch and properties of request sequences |
| `UploaderState` | the uploader's entry list and its updates |
| `ClientServer` | the two sides together: what a selected file becomes at the server and what the user sees for each server outcome |

## Model

| member | source | states |
|---|---|---|
| Basics.OrElse | backend/server.js:202 | JavaScript's `s \|\| fallback` on a possibly undefined string: `s` when it is truthy (present and non-empty), the fallback otherwise; also used for `error.response?.data?.error \|\| "Upload failed"` (src/components/FileUploader.tsx:138) |
| Admission.FileFilter | backend/server.js:68-78 | a file is accepted exactly when its MIME type starts with `image/` or `video/`; otherwise it is refused with "Only image and video files are allowed!" |
| Admission.ErrorMiddleware | backend/server.js:251-262 | the status is 400 exactly for a multer `LIMIT_FILE_SIZE` error, with "File too large. Maximum size is 500MB."; every other error, the filter's included, is 500 "Internal server error" |
| Admission.StoreTemp | backend/server.js:63-67 | a file is refused exactly when it is over 500 MiB, with `LIMIT_FILE_SIZE`, and its partial temporary file is removed again; an admitted file keeps its name, type and size and sits at the temporary path; nothing reaches the provider |
| Admission.Admit | backend/server.js:63-79 | the filter runs before anything is written, so a refused type leaves no effect at all; an accepted type is stored under its temporary name; a refusal never leaves a temporary file and the upload stage never calls the provider |
| Admission.TempFileName | backend/server.js:49-60 | the temporary name is the timestamp's digits, `-`, the random part, `-`, then the basename of the original name re-decoded as UTF-8 (stem and extension together make up that basename) |
| Admission.TempFileNameOfAscii | backend/server.js:53-59 | for an ASCII-only original name the temporary name ends in the basename of that same name |
| Admission.TempFileNameTimestamp | backend/server.js:51-59 | the timestamp reads back as the digits before the first `-` of the temporary name; the random part has at most six characters |
| PosixPath.StemPlusExtension | backend/server.js:56-57 | `basename(p, extname(p)) + extname(p)` is `basename(p)` for every path |
| PosixPath.Basename | backend/server.js:57 | the basename holds no `/` and is the last path component, with only `/` after it |
| PosixPath.Extname | backend/server.js:56 | the extension is non-empty exactly when the basename has a `.` after its first character and is not `..`; it then starts at the last `.` and is a proper suffix of the basename |
| PosixPath.BasenameWithSuffix | backend/server.js:57 | the suffix is cut off when it is a proper tail of the basename; an empty suffix, one longer than the path, one equal to the basename (but not the whole path) and one that neither ends the basename nor is ended by it leave the basename; a suffix equal to the whole path gives the empty string, as Node does |
| PosixPath.LastIndexOf | backend/server.js:56-57 | the position of the last occurrence of a character, or -1 exactly when it does not occur |
| Utf8.DecodeEncode | backend/server.js:53-55 | decoding the UTF-8 encoding of any string gives the string back |
| Utf8.RedecodeRepairsLatin1Reading | backend/server.js:53-55 | reading UTF-8 name bytes as Latin-1 and converting back through `latin1` and `utf8` recovers the name |
| Utf8.AsciiNameUnchanged | backend/server.js:53-55 | an ASCII name is unchanged by the Latin-1 to UTF-8 step |
| Utf8.Latin1Bytes | backend/server.js:53 | `Buffer.from(s, "latin1")` gives one to two bytes per character, and for text below U+0100 exactly the character codes in order |
| Utf8.Decode | backend/server.js:53-55 | `toString("utf8")` yields at most one character per byte, at least one for non-empty input, and maps ASCII bytes one-to-one to their characters |
| Utf8.DecodeStep | backend/server.js:53-55 | each decoding step consumes between one byte and what is left, and an ASCII byte is one character |
| JsText.Decimal | backend/server.js:51 | `Date.now()` in a template is a non-empty run of decimal digits without a leading zero |
| JsText.DecimalValue | backend/server.js:51 | those digits read back as the number |
| JsText.Substring | backend/server.js:52 | `substring(2, 8)` clamps both ends to the string and swaps them when reversed |
| JsText.ParseInt | backend/server.js:231-232 | `parseInt` is `NaN` for blank text; it gives a number only when the text after white space and one optional sign starts with a decimal digit, and the number is at most 0 after a minus and at least 0 otherwise |
| JsText.TrimStart | backend/server.js:231-232 | `parseInt` skips exactly the leading JavaScript white space |
| JsText.ParseIntOfDecimal | backend/server.js:231-232 | `parseInt` of decimal digits, followed by anything that cannot continue them, is their value |
| JsText.ParseIntOfNegativeDecimal | backend/server.js:231-232 | the same with a leading minus gives the negated value |
| JsText.ParseIntSkipsWhitespace | backend/server.js:231-232 | leading white space does not change what `parseInt` returns |
| UploadIndex.ReduceSizes | backend/server.js:106 | the `reduce` over sizes from a start value adds the sum of `size` over the index to it |
| UploadIndex.SpliceAt | backend/server.js:206 | `splice(i, 1)` removes the record at `i` when there is one and changes nothing for a position past the end |
| UploadIndex.RemoveById | backend/server.js:190-206 | looking the id up and splicing out what was found removes the first record with the id, and nothing when no record has it |
| UploadIndex.RemoveByIdRemovesOnlyId | backend/server.js:190-206 | with unique ids, removing by id takes exactly that id out of the set of ids, removes one record exactly when the id was present, and keeps ids unique |
| UploadIndex.TotalSizeAppend | backend/server.js:159 | pushing a record adds its size to the total |
| UploadIndex.TotalSizeRemoveAt | backend/server.js:206 | splicing a record out takes its size off the total |
| UploadIndex.FindFirst | backend/server.js:190-192 | the position of the first record with the id, or -1 when no record has it |
| UploadIndex.RemoveAt | backend/server.js:206 | the splice drops exactly the record at the position and keeps the others in order |
| UploadIndex.FindFirstFindsIds | backend/server.js:190-196 | the search finds an id exactly when some record carries it |
| UploadIndex.RemoveFoundLeavesNoId | backend/server.js:190-206 | with unique ids, removing the found record leaves no record with that id, and the ids stay unique |
| UploadIndex.AppendFreshKeepsUnique | backend/server.js:145-159 | appending a record with a new id keeps ids unique and adds exactly that id |
| Handlers.ListFiles | backend/server.js:101-107 | `/files` returns the index in insertion order, its length and the sum of its sizes, and changes nothing |
| Handlers.UploadHandler | backend/server.js:115-182 | no file is 400 with nothing changed; otherwise the provider upload is followed by the unlink of the temporary file on both outcomes; a provider failure is 500 with the index unchanged; success appends exactly one record whose id and filename are the provider's public id, whose size, original name and type are the transport's, whose URL, format, width, height and resource type are the provider's, and whose upload date is the request's |
| Handlers.UploadOptionsFor | backend/server.js:128-134 | the upload options have resource type `auto`, the `wedding-memories` folder, the public id `${Date.now()}-${random}`, `use_filename` on and `unique_filename` off |
| Handlers.MetadataOf | backend/server.js:145-157 | the stored record takes its original name, size and type from the transport, its id, filename, URL, format, width, height and resource type from the provider, and the request's upload date |
| Handlers.PostUpload | backend/server.js:115-182 | the index only grows by one record at the end, exactly when the status is 200, and the total grows by the file's size; every temporary file is removed; a refused type is exactly 500 "Internal server error" with no effects; an over-size file is 400 without a provider call |
| Handlers.StoreAdmitted | backend/server.js:136-175 | the temporary file an admitted upload creates is unlinked later in the same request, and a 200 response comes exactly with one appended record |
| Handlers.DeleteFile | backend/server.js:185-218 | an unknown id is 404 with nothing done; a known id is destroyed at the provider with the record's resource type or `auto`; a failed destroy is 500 with the index unchanged; a successful one splices out the first match and the total shrinks by its size |
| Handlers.BuildTransformation | backend/server.js:224-232 | quality and format are always present and default to `auto` only when absent; width and height are present exactly when their query value is truthy, and are then `parseInt` of it |
| Handlers.Optimize | backend/server.js:221-248 | the index is not changed; the URL builder gets the transformation; its answer is 200 with id, URL and transformation, its failure 500 with the message |
| Server.ServeStepsIndex | backend/server.js:101-218 | every request leaves the index unchanged, appends one record or removes one record, and a change only comes with a 200 |
| Server.ServeKeepsIdsUnique | backend/server.js:145-206 | as long as the provider hands out new public ids, no request makes two records share an id |
| Server.AppendedRecordIsProviders | backend/server.js:145-159 | a record an upload appends carries the provider's public id and the uploaded size |
| Server.UploadThenList | backend/server.js:101-159 | after a successful upload, the listing has one more file, the total grows by its size, and exactly the new last record has the new id |
| Server.DeleteThenDeleteAgain | backend/server.js:185-206 | after a successful delete of a unique id the id is gone, and deleting it again is 404 with nothing changed |
| Server.OptimizeIgnoresIndex | backend/server.js:221-248 | `/optimize` answers the same whatever the index holds, and leaves it alone |
| Server.OptimizeScenario | backend/server.js:224-232 | decimal width and height parse to their numbers; quality `auto` is kept and the format defaults to `auto` |
| Server.DecimalParses | backend/server.js:231-232 | `parseInt` of a number's decimal digits is that number |
| Server.StaleSpliceRemovesWrongRecord | backend/server.js:190-206 | two deletes overlapping across their destroy calls, splicing the positions they found before them, take out the wrong record and leave the destroyed one listed |
| Server.InterleavedDeletesCorrected | backend/server.js:190-206 | two overlapping deletes that look their id up again after the destroy call remove exactly their two ids, in either order, and keep ids unique |
| Server.RefindDeletesScenario | backend/server.js:190-206 | in the scenario above, the corrected deletes leave exactly the third record |
| UploaderState.NewEntries | src/components/FileUploader.tsx:74-80 | one entry per selected file with its name, size and type, progress 0, status uploading, no URL and no error |
| UploaderState.UploadIndices | src/components/FileUploader.tsx:85-87 | the `k`-th upload gets position `files.length + k` |
| UploaderState.HandleFiles | src/components/FileUploader.tsx:73-88 | the list becomes the existing entries followed by one fresh entry per selected file in selection order, and the `k`-th upload is given position `files.length + k`, which holds the `k`-th file's entry |
| UploaderState.Denominator | src/components/FileUploader.tsx:104 | `total \|\| 1` is the total when it is present and non-zero, and 1 otherwise |
| UploaderState.PercentCompleted | src/components/FileUploader.tsx:103-105 | the result is the percentage sent rounded to the nearest integer, halves up |
| UploaderState.PercentWithoutTotal | src/components/FileUploader.tsx:103-105 | without a total the divisor is 1, so the percentage is a hundred times the sent count and exceeds 100 from two bytes on |
| UploaderState.PercentBounds | src/components/FileUploader.tsx:103-105 | nothing sent gives 0, everything sent gives 100, and the percentage never passes 100 while the sent count is within the total |
| UploaderState.ApplyProgress | src/components/FileUploader.tsx:107-111 | only the entry at the position changes, and of it only the progress |
| UploaderState.ApplySuccess | src/components/FileUploader.tsx:116-128 | only the entry at the position changes: it becomes a success at 100 with the response URL and still describes the same file |
| UploaderState.FailureMessage | src/components/FileUploader.tsx:137-139 | the stored message is the server's `error` when the failure is an HTTP error carrying a non-empty one, and "Upload failed" otherwise |
| UploaderState.ApplyFailure | src/components/FileUploader.tsx:129-143 | only the entry at the position changes: it becomes an error with the message, and its progress and URL stay as they were |
| UploaderState.Apply | src/components/FileUploader.tsx:102-143 | one axios callback changes only the entry at the position and keeps its file: a progress report sets the rounded percentage and keeps the status, a response makes it a success at 100 with the URL, and a caught error makes it an error with the shown message |
| UploaderState.RemoveFile | src/components/FileUploader.tsx:147-149 | the filter drops exactly the entry at the position and keeps the others in order; an out-of-range position leaves the list unchanged |
| UploaderState.GetFileIcon | src/components/FileUploader.tsx:37-44 | `image/` types get the camera icon, then `video/` types get the video icon, everything else the generic one |
| UploaderState.ReplayOnlyAt | src/components/FileUploader.tsx:102-143 | however many progress, success and failure updates one upload reports, the other entries stay as they were and its entry still describes its file |
| UploaderState.ReplayTerminal | src/components/FileUploader.tsx:102-143 | progress updates followed by success end at 100 with the URL; followed by failure they end in an error at the last progress |
| ClientServer.Transmit | src/components/FileUploader.tsx:91-92 | the server receives the file's type and size, and a name from which the UTF-8 re-decoding recovers the user's file name |
| ClientServer.ClientEvent | src/components/FileUploader.tsx:94-143 | the upload succeeds exactly on a 2xx answer carrying a file, with that file's URL; a non-2xx answer is an HTTP failure carrying the body's `error`; an undelivered request shows "Upload failed" |
| ClientServer.PostReachesHandler | backend/server.js:115-116 | an accepted file within the limit passes the upload middleware and the route answers with the upload handler's response and index |
| ClientServer.RefusedTypeShowsInternalError | backend/server.js:251-262 | a file whose type the filter refuses is shown as "Internal server error", and the server changes and calls nothing |
| ClientServer.OversizeShowsTooLarge | backend/server.js:251-257 | an accepted type over 500 MiB is shown as "File too large. Maximum size is 500MB." and the index is unchanged |
| ClientServer.ProviderFailureShowsUploadFailed | backend/server.js:169-181 | a provider failure is shown as "Failed to upload file to Cloudinary" and the index is unchanged |
| ClientServer.SuccessIffRecorded | backend/server.js:159-168 | the client sees success exactly when the server appended a record, and then with that record's URL |
| ClientServer.SelectAndUpload | src/components/FileUploader.tsx:73-143 | after selecting one file and getting the server's answer, older entries are unchanged, and the new entry is a success exactly when the server recorded the file, otherwise an error at progress 0 |
| ClientServer.FilterAgreesWithIcon | src/components/FileUploader.tsx:37-44 | the server's filter accepts a type exactly when the uploader shows it with a camera or video icon |
| ClientServer.NamesOfSelectedFile | backend/server.js:49-60 | for a name the browser and the parser pass through as it is, the temporary name ends in its basename, non-ASCII characters included; the stored `originalName` is the Latin-1 reading of its UTF-8 bytes |
| ClientServer.StoredNameOfAccent | backend/server.js:146 | the name `é` is stored as the two characters `Ã©` |

## Left out

- Express routing, CORS, `dotenv`, `app.listen`, the `uploads` directory creation and console logging are I/O around the logic. The `cloudinary.config` call (made twice) is configuration I/O and is left out. The second `let uploadedFiles` (backend/server.js:85) redeclares the one at line 82, which is a SyntaxError in an ES module: as written the file does not load. The model has one index, as the code evidently intends.
- Cloudinary's `upload`, `destroy` and `url` are foreign calls. Their results are inputs, and their arguments are recorded as effects. Their internals are out of scope, and so is the possibility that `cloudinary.url` alters the transformation object it is given.
- The multipart parser itself is left out. Its refusals for unexpected fields or too many parts are left out too. Its size limit and its removal of the partial temporary file are modelled as `StoreTemp`.
- `path.join` of the temporary directory and the name is kept as a pair (`TempPath`), not normalised.
- `fs.unlinkSync` and `fs.existsSync` are assumed to succeed. An exception from them is not modelled.
- The `/health` route is a constant-shaped response.
- The `/files` catch branch cannot be reached by the modelled data.
- Query parameters given more than once, which Express turns into arrays, are left out. Query values are single strings or absent.
- `formatFileSize`, the drag-and-drop and input handlers, `openFile` and all rendering are presentation, floating point or browser I/O.
- Requests are modelled one at a time. Their interleaving across `await` is left out, apart from the overlapping deletes under "## Findings". An upload that finishes while a delete waits only appends, so it does not shift the position that delete found.
- The asynchronous interleaving of several uploads is left out. So is the stale `files` closure in `handleFiles`. The updates are modelled one at a time, with the position as an argument.
- `src/components/FileList.tsx` and `src/App.tsx` are presentation and network fetches. They are not part of this model.
- UploaderState.PercentCompleted: rounds the exact rational `loaded * 100 / total`, not the IEEE double that JavaScript computes. The two can differ only for very large byte counts.
- JsText.ParseInt: returns exact integers. It does not model the loss of precision of `parseInt` beyond 2^53, and it reads `-0` as 0.
- ClientServer.ClientEvent: a 2xx answer without a `file` does not follow the component. It reads `response.data.file.url` inside the `setFiles` updater (src/components/FileUploader.tsx:117-127), not in the `try` body. So the throw surfaces when React renders, not in the `catch`, and the entry is not marked as an error. The model takes that case as a non-HTTP failure instead. The upload route never sends such an answer: every 200 carries the file.
- ClientServer.Transmit: assumes the browser and the parser pass the name and type through as they are. This does not hold for every input:
  - the parser keeps only the part of a name after its last `/` or `\`, and turns `.` and `..` into an empty name;
  - browsers percent-encode `"`, CR and LF in the part's filename;
  - browsers send an empty type as `application/octet-stream`.

  The name properties hold only for other names and types.
- Utf8.Latin1Unit: a character above U+FFFF is taken as its two UTF-16 code units. This follows Node's `latin1` conversion; it matters only for names the parser cannot produce.

### Two behaviours of the code worth knowing

- A type outside `image/*` and `video/*` is answered 500 "Internal server error", not a 400. The filter's plain `Error` (backend/server.js:76) reaches the error middleware, which keeps 400 for the size limit only (backend/server.js:251-261). See `Handlers.PostUpload` and `ClientServer.RefusedTypeShowsInternalError`.
- Only the temporary name is re-decoded from Latin-1 to UTF-8 (backend/server.js:53). The record keeps the raw `originalname` (backend/server.js:146), so `café.jpg` is stored as `cafÃ©.jpg`. See `ClientServer.NamesOfSelectedFile` and `ClientServer.StoredNameOfAccent`.

## Findings

| source | as written | input that shows it | evidently intended | confidence | as-written member | corrected member |
|---|---|---|---|---|---|---|
| backend/server.js:190-206 | the delete handler finds the record's position, awaits the provider's destroy, then splices that position (`UploadIndex.SpliceAt`), which may have shifted meanwhile | index with ids `a`, `b`, `c`; `DELETE /files/a` and `DELETE /files/b` both waiting on the provider; `a`'s handler resumes first | take out the record that carries the id once the destroy has settled (`UploadIndex.RemoveById`, which `Handlers.DeleteFile` uses) | not executed | Server.StaleSpliceRemovesWrongRecord | Server.InterleavedDeletesCorrected |

=== FILE: admission.dfy ===
/** What happens to an uploaded file before the upload handler sees it: the
    MIME-type filter, the temporary filename, the size limit, and the error
    middleware that turns a refusal into a response. */
module Admission {
  import opened Basics
  import opened Http
  import Utf8
  import PosixPath
  import JsText

  /** The size limit: 500 MiB. */
  const MaxFileSize: nat := 500 * 1024 * 1024

  const FilterMessage := "Only image and video files are allowed!"
  const LimitFileSize := "LIMIT_FILE_SIZE"
  const TooLargeMessage := "File too large. Maximum size is 500MB."
  const InternalErrorMessage := "Internal server error"

  /** A file part as the multipart parser reports it. `originalname` is the
      header text, read as Latin-1. */
  datatype IncomingFile = IncomingFile(originalname: string, mimetype: string, size: nat)

  /** `req.file` once the file sits in the temporary directory. */
  datatype StoredFile = StoredFile(
    originalname: string,
    mimetype: string,
    size: nat,
    filename: string,
    path: TempPath)

  datatype FilterDecision = Accept | Reject(error: string)

  /** Errors the upload middleware hands on. */
  datatype UploadError = MulterError(code: string) | PlainError(message: string)

  /** `fileFilter`: images and videos only. */
  function FileFilter(mimetype: string): (d: FilterDecision)
    ensures d == Accept <==> StartsWith(mimetype, "image/") || StartsWith(mimetype, "video/")
    ensures d.Reject? ==> d.error == FilterMessage
  {
    if StartsWith(mimetype, "image/") || StartsWith(mimetype, "video/") then Accept
    else Reject(FilterMessage)
  }

  /** The error middleware: a size-limit error from the upload middleware is
      a 400, every other error a 500. */
  function ErrorMiddleware(e: UploadError): (r: Response)
    ensures r.status == 400 <==> e == MulterError(LimitFileSize)
    ensures r.status == 400 ==> r.body == ErrorBody(TooLargeMessage, None)
    ensures r.status != 400 ==> r == Response(500, ErrorBody(InternalErrorMessage, None))
  {
    if e.MulterError? && e.code == LimitFileSize then Response(400, ErrorBody(TooLargeMessage, None))
    else Response(500, ErrorBody(InternalErrorMessage, None))
  }

  /** The disk storage `filename` callback: `${timestamp}-${random}-${stem}${ext}`,
      where the random part is `Math.random().toString(36).substring(2, 8)` and
      `stem`/`ext` come from the original name re-decoded as UTF-8. */
  function TempFileName(timestamp: nat, randomText: string, originalname: string): (name: string)
    ensures name == JsText.Decimal(timestamp) + "-" + JsText.Substring(randomText, 2, 8) + "-"
                    + PosixPath.Basename(Utf8.FromLatin1AsUtf8(originalname))
  {
    var decoded := Utf8.FromLatin1AsUtf8(originalname);
    var extension := PosixPath.Extname(decoded);
    var nameWithoutExt := PosixPath.BasenameWithSuffix(decoded, extension);
    PosixPath.StemPlusExtension(decoded);
    var prefix := JsText.Decimal(timestamp) + "-" + JsText.Substring(randomText, 2, 8) + "-";
    assert prefix + nameWithoutExt + extension == prefix + (nameWithoutExt + extension);
    prefix + nameWithoutExt + extension
  }

  /** For an ASCII-only original name the temporary name ends in its basename. */
  lemma TempFileNameOfAscii(timestamp: nat, randomText: string, originalname: string)
    requires Utf8.IsAscii(originalname)
    ensures TempFileName(timestamp, randomText, originalname)
            == JsText.Decimal(timestamp) + "-" + JsText.Substring(randomText, 2, 8) + "-"
               + PosixPath.Basename(originalname)
  {
    Utf8.AsciiNameUnchanged(originalname);
  }

  /** The temporary name opens with the timestamp's digits and a `-`, so the
      timestamp reads back from everything before the first `-`; the random
      part is at most six characters. */
  lemma TempFileNameTimestamp(timestamp: nat, randomText: string, originalname: string)
    ensures var name := TempFileName(timestamp, randomText, originalname);
            var d := |JsText.Decimal(timestamp)|;
            && d < |name| && name[d] == '-'
            && (forall i :: 0 <= i < d ==> name[i] != '-')
            && JsText.AllDigitsIn(name[..d], 10)
            && JsText.Value(name[..d], 10) == timestamp
    ensures |JsText.Substring(randomText, 2, 8)| <= 6
  {
    var digits := JsText.Decimal(timestamp);
    var random := JsText.Substring(randomText, 2, 8);
    var base := PosixPath.Basename(Utf8.FromLatin1AsUtf8(originalname));
    var rest := random + "-" + base;
    Reassociate(digits, random, base);
    JsText.DecimalValue(timestamp);
    DigitsThenDash(digits, rest);
  }

  lemma Reassociate(digits: string, random: string, base: string)
    ensures digits + "-" + random + "-" + base == digits + ("-" + (random + "-" + base))
  {
  }

  /** Decimal digits followed by `-`: the dash is the first one. */
  lemma DigitsThenDash(digits: string, rest: string)
    requires JsText.AllDigitsIn(digits, 10)
    ensures var s := digits + ("-" + rest);
            && s[|digits|] == '-' && s[..|digits|] == digits
            && forall i :: 0 <= i < |digits| ==> s[i] != '-'
  {
    var s := digits + ("-" + rest);
    forall i | 0 <= i < |digits| ensures s[i] != '-' {
      assert s[i] == digits[i] && JsText.IsDigitIn(digits[i], 10);
    }
  }

  /** The outcome of the upload middleware for one file part. */
  datatype Admission =
    | Admitted(file: StoredFile, effects: seq<Effect>)
    | Refused(error: UploadError, effects: seq<Effect>)

  /** The upload middleware for one file: the filter runs first, so a refused
      type never reaches the disk; an accepted file is written under its
      temporary name. */
  function Admit(f: IncomingFile, uploadsDir: string, timestamp: nat, randomText: string): (a: Admission)
    ensures a.Refused? && a.error.PlainError? <==> FileFilter(f.mimetype).Reject?
    ensures FileFilter(f.mimetype).Reject? ==> a.effects == []
    ensures FileFilter(f.mimetype) == Accept ==>
              a == StoreTemp(f, TempPath(uploadsDir, TempFileName(timestamp, randomText, f.originalname)))
    ensures a.Refused? ==> NoTempLeft(a.effects)
    ensures !CallsProvider(a.effects)
  {
    match FileFilter(f.mimetype)
    case Reject(message) => Refused(PlainError(message), [])
    case Accept => StoreTemp(f, TempPath(uploadsDir, TempFileName(timestamp, randomText, f.originalname)))
  }

  /** Writing an accepted file to its temporary path: a file over the limit is
      refused and its partial temporary file removed again. */
  function StoreTemp(f: IncomingFile, path: TempPath): (a: Admission)
    ensures a.Refused? <==> f.size > MaxFileSize
    ensures a.Refused? ==> a.error == MulterError(LimitFileSize) && NoTempLeft(a.effects)
    ensures a.Admitted? ==>
              a == Admitted(StoredFile(f.originalname, f.mimetype, f.size, path.name, path), [CreateTemp(path)])
    ensures !CallsProvider(a.effects)
  {
    if f.size > MaxFileSize then
      var effects := [CreateTemp(path), UnlinkTemp(path)];
      assert effects[1] == UnlinkTemp(effects[0].path);
      TempEffectsOnly(effects);
      Refused(MulterError(LimitFileSize), effects)
    else
      TempEffectsOnly([CreateTemp(path)]);
      Admitted(StoredFile(f.originalname, f.mimetype, f.size, path.name, path), [CreateTemp(path)])
  }
}

=== FILE: basics.dfy ===
/** Small shared vocabulary: optional values, settled promises of a foreign
    call, and the string predicates JavaScript code uses (`startsWith`,
    `endsWith`, the `a || b` default on strings). */
module Basics {

  /** A value that JavaScript may leave `undefined`. */
  datatype Option<+T> = None | Some(value: T) {

    /** The value, or `default` when absent (a destructuring default). */
    function GetOr(default: T): T {
      match this
      case Some(v) => v
      case None => default
    }
  }

  /** How an awaited call into a foreign library settled. */
  datatype Settled<+T> = Resolved(value: T) | Rejected(message: string)

  /** `s.startsWith(prefix)`. */
  predicate StartsWith(s: string, prefix: string) {
    |prefix| <= |s| && s[..|prefix|] == prefix
  }

  /** `s.endsWith(suffix)`. */
  predicate EndsWith(s: string, suffix: string) {
    |suffix| <= |s| && s[|s| - |suffix|..] == suffix
  }

  /** A string value is truthy in JavaScript exactly when it is present and non-empty. */
  predicate Truthy(s: Option<string>) {
    s.Some? && s.value != ""
  }

  /** JavaScript's `s || fallback` for a possibly undefined string. */
  function OrElse(s: Option<string>, fallback: string): (r: string)
    ensures Truthy(s) ==> r == s.value
    ensures !Truthy(s) ==> r == fallback
  {
    if s.Some? && s.value != "" then s.value else fallback
  }
}

=== FILE: client_server.dfy ===
/** The uploader and the server together: what a selected file looks like
    when it reaches the upload route, what the client makes of the server's
    answer, and what the user ends up seeing for each server outcome. */
module ClientServer {
  import opened Basics
  import opened Http
  import opened Admission
  import opened Handlers
  import opened Server
  import opened UploaderState
  import Utf8
  import PosixPath
  import JsText

  /** A selected file as the multipart parser reports it: the browser sends
      the name as UTF-8 and the parser reads those bytes as Latin-1 text; the
      part's type and size are the file's. This is the case of a name without
      separators or characters the browser escapes, and of a non-empty type. */
  function Transmit(f: SelectedFile): (incoming: IncomingFile)
    ensures incoming.mimetype == f.fileType && incoming.size == f.size
    ensures Utf8.FromLatin1AsUtf8(incoming.originalname) == f.name
  {
    Utf8.RedecodeRepairsLatin1Reading(f.name);
    IncomingFile(Utf8.Latin1Chars(Utf8.Encode(f.name)), f.fileType, f.size)
  }

  /** What reaches the client: a response, or nothing (a network failure). */
  datatype Delivery = Delivered(response: Response) | Undelivered

  /** The `error` field of a JSON body, when it has one. */
  function ErrorField(body: Body): Option<string> {
    if body.ErrorBody? then Some(body.error) else None
  }

  /** The event the upload's `try`/`catch` turns a delivery into. The request
      only resolves on a 2xx status. A 2xx answer without a file, which the
      upload route never sends, is taken here as a non-HTTP failure. */
  function ClientEvent(d: Delivery): (e: Event)
    ensures e.Succeeded? <==> d.Delivered? && 200 <= d.response.status < 300 && d.response.body.UploadedBody?
    ensures e.Succeeded? ==> e.url == d.response.body.file.url
    ensures d.Delivered? && !(200 <= d.response.status < 300) ==>
              e == Failed(HttpFailure(ErrorField(d.response.body)))
    ensures d.Undelivered? ==> e.Failed? && FailureMessage(e.failure) == UploadFailed
  {
    match d
    case Undelivered => Failed(HttpFailure(None))
    case Delivered(response) =>
      if 200 <= response.status < 300 then
        if response.body.UploadedBody? then Succeeded(response.body.file.url)
        else Failed(OtherFailure)
      else Failed(HttpFailure(ErrorField(response.body)))
  }

  /** The upload route's answer to a selected file. */
  function Post(index: UploadIndex.Index, f: SelectedFile, w: World): Exchange {
    Serve(index, PostFile(Some(Transmit(f))), w)
  }

  /** The message the user sees for a failed upload, given the server's answer. */
  function Shown(index: UploadIndex.Index, f: SelectedFile, w: World): string {
    var e := ClientEvent(Delivered(Post(index, f, w).response));
    if e.Failed? then FailureMessage(e.failure) else ""
  }

  /** An accepted file within the limit is stored and handed to the upload
      handler, whose answer and index are the route's. */
  lemma PostReachesHandler(index: UploadIndex.Index, f: SelectedFile, w: World)
    requires FileFilter(f.fileType) == Accept && f.size <= MaxFileSize
    ensures var a := Admit(Transmit(f), w.env.uploadsDir, w.env.nameTime, w.env.nameRandom);
            && a.Admitted?
            && a.file.size == f.size
            && a.file.originalname == Transmit(f).originalname
            && var h := UploadHandler(index, Some(a.file), w.env, w.upload);
               Post(index, f, w).index == h.index && Post(index, f, w).response == h.response
  {
    var incoming := Transmit(f);
    var a := Admit(incoming, w.env.uploadsDir, w.env.nameTime, w.env.nameRandom);
    assert a.Admitted?;
    assert Post(index, f, w) == StoreAdmitted(index, a.file, w.env, w.upload);
  }

  /** A file the type filter refuses is reported as an internal error, and
      nothing reaches the disk or the provider. */
  lemma RefusedTypeShowsInternalError(index: UploadIndex.Index, f: SelectedFile, w: World)
    requires FileFilter(f.fileType).Reject?
    ensures Post(index, f, w).index == index && Post(index, f, w).effects == []
    ensures ClientEvent(Delivered(Post(index, f, w).response)).Failed?
    ensures Shown(index, f, w) == InternalErrorMessage
  {
  }

  /** A file of an accepted type over the limit is reported as too large. */
  lemma OversizeShowsTooLarge(index: UploadIndex.Index, f: SelectedFile, w: World)
    requires FileFilter(f.fileType) == Accept && f.size > MaxFileSize
    ensures Post(index, f, w).index == index
    ensures ClientEvent(Delivered(Post(index, f, w).response)).Failed?
    ensures Shown(index, f, w) == TooLargeMessage
  {
  }

  /** An accepted file the provider refuses is reported with the handler's
      message, not the provider's. */
  lemma ProviderFailureShowsUploadFailed(index: UploadIndex.Index, f: SelectedFile, w: World)
    requires FileFilter(f.fileType) == Accept && f.size <= MaxFileSize
    requires w.upload.Rejected?
    ensures Post(index, f, w).index == index
    ensures ClientEvent(Delivered(Post(index, f, w).response)).Failed?
    ensures Shown(index, f, w) == UploadFailedMessage
  {
    PostReachesHandler(index, f, w);
    var x := Post(index, f, w);
    assert x.response == Response(500, ErrorBody(UploadFailedMessage, Some(w.upload.message)));
    assert ClientEvent(Delivered(x.response)) == Failed(HttpFailure(Some(UploadFailedMessage)));
  }

  /** The client reports success exactly when the server recorded the file,
      and then with the URL of the record it appended. */
  lemma SuccessIffRecorded(index: UploadIndex.Index, f: SelectedFile, w: World)
    ensures var x := Post(index, f, w);
            var e := ClientEvent(Delivered(x.response));
            && (e.Succeeded? <==> x.index != index)
            && (e.Succeeded? ==> |x.index| == |index| + 1 && e.url == x.index[|index|].url)
  {
    var x := Post(index, f, w);
    if x.index != index {
      assert FileFilter(f.fileType) == Accept && f.size <= MaxFileSize;
      PostReachesHandler(index, f, w);
      assert x.response.body == UploadedBody(UploadedMessage, x.index[|index|]);
    }
  }

  /** Selecting one file and hearing back from the server: the entries that
      were there stay as they were, and the new entry ends in success exactly
      when the server recorded the file, otherwise in an error. */
  lemma SelectAndUpload(files: Files, f: SelectedFile, index: UploadIndex.Index, w: World)
    ensures var (listed, positions) := HandleFiles(files, [f]);
            var x := Post(index, f, w);
            var after := Apply(listed, positions[0], ClientEvent(Delivered(x.response)));
            && |after| == |files| + 1
            && after[..|files|] == files
            && SameFile(after[|files|], UploadedFile(f.name, f.size, f.fileType, 0, Uploading, None, None))
            && (after[|files|].status == Success <==> x.index != index)
            && (after[|files|].status != Success ==> after[|files|].status == Error && after[|files|].progress == 0)
  {
    var (listed, positions) := HandleFiles(files, [f]);
    var x := Post(index, f, w);
    var e := ClientEvent(Delivered(x.response));
    var after := Apply(listed, positions[0], e);
    SuccessIffRecorded(index, f, w);
    assert positions[0] == |files|;
    assert after[..|files|] == files by {
      forall j | 0 <= j < |files| ensures after[j] == files[j] {
        assert after[j] == listed[j] && listed[j] == listed[..|files|][j];
      }
    }
  }

  /** The type filter and the icon agree: the server takes a file exactly
      when the uploader shows it with an image or video icon. */
  lemma FilterAgreesWithIcon(fileType: string)
    ensures FileFilter(fileType) == Accept <==> GetFileIcon(fileType) != Generic
  {
  }

  /** The temporary name of a selected file ends in the basename of the name
      the user saw, non-ASCII characters included, while the stored record
      keeps the Latin-1 reading of its UTF-8 bytes. Names the browser or the
      parser rewrite are outside `Transmit`. */
  lemma NamesOfSelectedFile(index: UploadIndex.Index, f: SelectedFile, w: World)
    ensures TempFileName(w.env.nameTime, w.env.nameRandom, Transmit(f).originalname)
            == JsText.Decimal(w.env.nameTime) + "-" + JsText.Substring(w.env.nameRandom, 2, 8) + "-"
               + PosixPath.Basename(f.name)
    ensures Post(index, f, w).index != index ==>
              Post(index, f, w).index[|index|].originalName == Utf8.Latin1Chars(Utf8.Encode(f.name))
  {
    Utf8.RedecodeRepairsLatin1Reading(f.name);
    var x := Post(index, f, w);
    if x.index != index {
      assert FileFilter(f.fileType) == Accept && f.size <= MaxFileSize;
      PostReachesHandler(index, f, w);
    }
  }

  /** For a name outside ASCII the stored name is not the name the user saw:
      `é` is stored as the two characters `Ã©`. */
  lemma StoredNameOfAccent()
    ensures Utf8.Latin1Chars(Utf8.Encode(['\U{E9}'])) == ['\U{C3}', '\U{A9}']
  {
  }
}

=== FILE: handlers.dfy ===
/** The route handlers over the upload index, each a pure function from the
    index, the request and what the media provider answered, to an `Exchange`. */
module Handlers {
  import opened Basics
  import opened UploadIndex
  import opened Http
  import opened Admission
  import JsText

  /** The clock readings and random draws one upload request makes, plus the
      temporary directory. */
  datatype UploadEnv = UploadEnv(
    uploadsDir: string,
    nameTime: nat,        // Date.now() in the filename callback
    nameRandom: string,   // Math.random().toString(36) there
    idTime: nat,          // Date.now() for the public id
    idRandom: string,     // Math.random().toString(36) for the public id
    uploadDate: string)   // new Date().toISOString()

  /** What the provider's upload call resolves with. */
  datatype ProviderAsset = ProviderAsset(
    publicId: string,
    secureUrl: string,
    format: Option<string>,
    width: Option<int>,
    height: Option<int>,
    resourceType: Option<string>)

  /** The query of `/optimize`; a parameter that is not given is `None`. */
  datatype OptimizeQuery = OptimizeQuery(
    width: Option<string>,
    height: Option<string>,
    quality: Option<string>,
    format: Option<string>)

  const Folder := "wedding-memories"
  const NoFileMessage := "No file uploaded"
  const UploadedMessage := "File uploaded successfully to Cloudinary"
  const UploadFailedMessage := "Failed to upload file to Cloudinary"
  const NotFoundMessage := "File not found"
  const DeletedMessage := "File deleted successfully from Cloudinary"
  const DeleteFailedMessage := "Failed to delete file from Cloudinary"
  const OptimizeFailedMessage := "Failed to generate optimized URL"

  /** `GET /files`: the index in insertion order, its length and its total size. */
  function ListFiles(index: Index): (x: Exchange)
    ensures x.index == index && x.effects == []
    ensures x.response.status == 200
    ensures x.response.body == FilesBody(index, |index|, TotalSize(index))
  {
    Exchange(index, Response(200, FilesBody(index, |index|, ReduceSizes(index, 0))), [])
  }

  /** The options of the provider upload call: the provider picks the
      resource type, files go to the wedding folder under the public id
      `${Date.now()}-${random}`, named after the file but not made unique. */
  function UploadOptionsFor(env: UploadEnv): (o: UploadOptions)
    ensures o.resourceType == "auto" && o.folder == Folder
    ensures o.publicId == JsText.Decimal(env.idTime) + "-" + JsText.Substring(env.idRandom, 2, 8)
    ensures o.useFilename && !o.uniqueFilename
  {
    UploadOptions("auto", Folder,
                  JsText.Decimal(env.idTime) + "-" + JsText.Substring(env.idRandom, 2, 8),
                  true, false)
  }

  /** The record the upload handler stores for an uploaded file: names, size
      and type from the transport, identity, URL and media details from the
      provider, and the upload time. */
  function MetadataOf(f: StoredFile, asset: ProviderAsset, uploadDate: string): (m: FileMetadata)
    ensures m.originalName == f.originalname && m.size == f.size && m.mimetype == f.mimetype
    ensures m.filename == asset.publicId && m.cloudinaryId == asset.publicId
    ensures m.url == asset.secureUrl
    ensures m.format == asset.format && m.width == asset.width && m.height == asset.height
    ensures m.resourceType == asset.resourceType
    ensures m.uploadDate == uploadDate
  {
    FileMetadata(
      originalName := f.originalname,
      filename := asset.publicId,
      size := f.size,
      mimetype := f.mimetype,
      url := asset.secureUrl,
      cloudinaryId := asset.publicId,
      uploadDate := uploadDate,
      format := asset.format,
      width := asset.width,
      height := asset.height,
      resourceType := asset.resourceType)
  }

  /** The `POST /upload` handler body, once the upload middleware has run. A
      missing file is a 400; otherwise the file goes to the provider and the
      temporary file is unlinked whether the provider succeeds or fails; only
      success appends, and it appends exactly one record. */
  function UploadHandler(index: Index, file: Option<StoredFile>, env: UploadEnv,
                         provider: Settled<ProviderAsset>): (x: Exchange)
    ensures file.None? ==> x == Exchange(index, Response(400, ErrorBody(NoFileMessage, None)), [])
    ensures file.Some? ==>
              x.effects == [ProviderUpload(file.value.path, UploadOptionsFor(env)), UnlinkTemp(file.value.path)]
    ensures file.Some? && provider.Rejected? ==>
              && x.index == index
              && x.response == Response(500, ErrorBody(UploadFailedMessage, Some(provider.message)))
    ensures file.Some? && provider.Resolved? ==>
              && |x.index| == |index| + 1
              && x.index[..|index|] == index
              && var rec := x.index[|index|];
              && rec.cloudinaryId == provider.value.publicId
              && rec.filename == provider.value.publicId
              && rec.size == file.value.size
              && rec.originalName == file.value.originalname
              && rec.mimetype == file.value.mimetype
              && rec.url == provider.value.secureUrl
              && rec.uploadDate == env.uploadDate
              && rec.format == provider.value.format
              && rec.width == provider.value.width
              && rec.height == provider.value.height
              && rec.resourceType == provider.value.resourceType
              && x.response == Response(200, UploadedBody(UploadedMessage, rec))
  {
    match file
    case None => Exchange(index, Response(400, ErrorBody(NoFileMessage, None)), [])
    case Some(f) =>
      var effects := [ProviderUpload(f.path, UploadOptionsFor(env)), UnlinkTemp(f.path)];
      match provider
      case Rejected(message) =>
        Exchange(index, Response(500, ErrorBody(UploadFailedMessage, Some(message))), effects)
      case Resolved(asset) =>
        var rec := MetadataOf(f, asset, env.uploadDate);
        assert (index + [rec])[..|index|] == index;
        Exchange(index + [rec], Response(200, UploadedBody(UploadedMessage, rec)), effects)
  }

  /** The whole `POST /upload` route: the upload middleware for the file part
      (with the error middleware for its refusals), then the handler. */
  function PostUpload(index: Index, incoming: Option<IncomingFile>, env: UploadEnv,
                      provider: Settled<ProviderAsset>): (x: Exchange)
    ensures x.index == index || (|x.index| == |index| + 1 && x.index[..|index|] == index)
    ensures x.response.status == 200 <==> x.index != index
    ensures x.response.status == 200 ==>
              incoming.Some? && TotalSize(x.index) == TotalSize(index) + incoming.value.size
    ensures NoTempLeft(x.effects)
    ensures incoming.None? ==> x.response.status == 400
    ensures incoming.Some? && FileFilter(incoming.value.mimetype).Reject? ==>
              x == Exchange(index, Response(500, ErrorBody(InternalErrorMessage, None)), [])
    ensures incoming.Some? && FileFilter(incoming.value.mimetype) == Accept && incoming.value.size > MaxFileSize ==>
              x.index == index && x.response == Response(400, ErrorBody(TooLargeMessage, None))
              && !CallsProvider(x.effects)
  {
    match incoming
    case None => UploadHandler(index, None, env, provider)
    case Some(f) =>
      match Admit(f, env.uploadsDir, env.nameTime, env.nameRandom)
      case Refused(e, effects) =>
        Exchange(index, ErrorMiddleware(e), effects)
      case Admitted(stored, _) => StoreAdmitted(index, stored, env, provider)
  }

  /** An admitted file: written to the temporary directory, then handed to the
      upload handler, which removes it again. */
  function StoreAdmitted(index: Index, stored: StoredFile, env: UploadEnv,
                         provider: Settled<ProviderAsset>): (x: Exchange)
    ensures x.index == index || (|x.index| == |index| + 1 && x.index[..|index|] == index)
    ensures x.response.status == 200 <==> x.index != index
    ensures x.response.status == 200 ==> TotalSize(x.index) == TotalSize(index) + stored.size
    ensures NoTempLeft(x.effects)
  {
    var h := UploadHandler(index, Some(stored), env, provider);
    var effects := [CreateTemp(stored.path)] + h.effects;
    assert effects[2] == UnlinkTemp(stored.path);
    assert forall i :: 1 <= i < |effects| ==> !effects[i].CreateTemp?;
    assert h.index != index ==> TotalSize(h.index) == TotalSize(index) + stored.size by {
      if h.index != index {
        assert h.index == index + [h.index[|index|]];
        TotalSizeAppend(index, h.index[|index|]);
      }
    }
    Exchange(h.index, h.response, effects)
  }

  /** `DELETE /files/:cloudinaryId`, one request at a time. An unknown id is a
      404 with nothing changed; a known id is destroyed at the provider first
      and only then taken out of the index, so a failed destroy leaves the
      index as it was. The record is taken out by its id rather than at the
      position found before the destroy call (see `Server.StaleSpliceRemovesWrongRecord`);
      for a request on its own the two are the same. */
  function DeleteFile(index: Index, id: string, destroy: Settled<string>): (x: Exchange)
    ensures FindFirst(index, id) == -1 ==>
              x == Exchange(index, Response(404, ErrorBody(NotFoundMessage, None)), [])
    ensures FindFirst(index, id) >= 0 ==>
              var k := FindFirst(index, id);
              x.effects == [ProviderDestroy(id, OrElse(index[k].resourceType, "auto"))]
    ensures FindFirst(index, id) >= 0 && destroy.Rejected? ==>
              && x.index == index
              && x.response == Response(500, ErrorBody(DeleteFailedMessage, Some(destroy.message)))
    ensures FindFirst(index, id) >= 0 && destroy.Resolved? ==>
              var k := FindFirst(index, id);
              && x.index == RemoveAt(index, k)
              && TotalSize(x.index) + index[k].size == TotalSize(index)
              && x.response == Response(200, MessageBody(DeletedMessage))
  {
    var k := FindFirst(index, id);
    if k == -1 then Exchange(index, Response(404, ErrorBody(NotFoundMessage, None)), [])
    else
      var effects := [ProviderDestroy(id, OrElse(index[k].resourceType, "auto"))];
      match destroy
      case Rejected(message) =>
        Exchange(index, Response(500, ErrorBody(DeleteFailedMessage, Some(message))), effects)
      case Resolved(_) =>
        TotalSizeRemoveAt(index, k);
        Exchange(RemoveById(index, id), Response(200, MessageBody(DeletedMessage)), effects)
  }

  /** The `/optimize` transformation: `quality` and `fetch_format` always
      present (`"auto"` when the parameter is not given), `width` and `height`
      only when their parameter is a non-empty string, as `parseInt` reads it. */
  function BuildTransformation(q: OptimizeQuery): (t: Transformation)
    ensures q.quality.None? ==> t.quality == "auto"
    ensures q.quality.Some? ==> t.quality == q.quality.value
    ensures q.format.None? ==> t.fetchFormat == "auto"
    ensures q.format.Some? ==> t.fetchFormat == q.format.value
    ensures t.width.Some? <==> Truthy(q.width)
    ensures t.height.Some? <==> Truthy(q.height)
    ensures Truthy(q.width) ==> t.width.value == JsText.ParseInt(q.width.value)
    ensures Truthy(q.height) ==> t.height.value == JsText.ParseInt(q.height.value)
  {
    Transformation(
      quality := q.quality.GetOr("auto"),
      fetchFormat := q.format.GetOr("auto"),
      width := if Truthy(q.width) then Some(JsText.ParseInt(q.width.value)) else None,
      height := if Truthy(q.height) then Some(JsText.ParseInt(q.height.value)) else None)
  }

  /** `GET /optimize/:cloudinaryId`: builds the transformation and asks the
      provider's URL builder; the index is neither read nor changed. */
  function Optimize(index: Index, id: string, q: OptimizeQuery, url: Settled<string>): (x: Exchange)
    ensures x.index == index
    ensures x.effects == [ProviderUrl(id, BuildTransformation(q))]
    ensures url.Resolved? ==>
              x.response == Response(200, OptimizedBody(id, url.value, BuildTransformation(q)))
    ensures url.Rejected? ==>
              x.response == Response(500, ErrorBody(OptimizeFailedMessage, Some(url.message)))
  {
    var t := BuildTransformation(q);
    var response :=
      match url
      case Resolved(u) => Response(200, OptimizedBody(id, u, t))
      case Rejected(message) => Response(500, ErrorBody(OptimizeFailedMessage, Some(message)));
    Exchange(index, response, [ProviderUrl(id, t)])
  }
}

=== FILE: http.dfy ===
/** What a request to the server produces: the JSON response, the upload
    index afterwards, and the side effects (temporary files, calls into the
    media provider) in the order they happen. */
module Http {
  import opened Basics
  import opened UploadIndex
  import JsText

  /** The `/optimize` transformation record handed to the URL builder. */
  datatype Transformation = Transformation(
    quality: string,
    fetchFormat: string,
    width: Option<JsText.Number>,
    height: Option<JsText.Number>)

  /** The JSON bodies the server sends. */
  datatype Body =
    | FilesBody(files: Index, totalFiles: nat, totalSize: nat)
    | UploadedBody(message: string, file: FileMetadata)
    | MessageBody(message: string)
    | ErrorBody(error: string, details: Option<string>)
    | OptimizedBody(originalId: string, optimizedUrl: string, transformation: Transformation)

  datatype Response = Response(status: nat, body: Body)

  /** A file in the temporary upload directory. */
  datatype TempPath = TempPath(dir: string, name: string)

  /** The options the upload handler passes to the provider's upload call. */
  datatype UploadOptions = UploadOptions(
    resourceType: string,
    folder: string,
    publicId: string,
    useFilename: bool,
    uniqueFilename: bool)

  datatype Effect =
    | CreateTemp(path: TempPath)
    | UnlinkTemp(path: TempPath)
    | ProviderUpload(file: TempPath, options: UploadOptions)
    | ProviderDestroy(id: string, resourceType: string)
    | ProviderUrl(id: string, transformation: Transformation)

  /** One request's outcome. */
  datatype Exchange = Exchange(index: Index, response: Response, effects: seq<Effect>)

  /** Every temporary file created is unlinked later in the same request. */
  predicate NoTempLeft(effects: seq<Effect>) {
    forall i :: 0 <= i < |effects| && effects[i].CreateTemp? ==>
      exists j :: i < j < |effects| && effects[j] == UnlinkTemp(effects[i].path)
  }

  /** The effects reach the media provider. */
  predicate CallsProvider(effects: seq<Effect>) {
    exists i :: 0 <= i < |effects| && (effects[i].ProviderUpload? || effects[i].ProviderDestroy? || effects[i].ProviderUrl?)
  }

  lemma TempEffectsOnly(effects: seq<Effect>)
    requires forall i :: 0 <= i < |effects| ==> effects[i].CreateTemp? || effects[i].UnlinkTemp?
    ensures !CallsProvider(effects)
  {
  }
}

=== FILE: js_text.dfy ===
/** The JavaScript text primitives the server leans on: an integer rendered
    in a template literal, `String.prototype.substring`, and `parseInt` with
    no radix. Numbers are unbounded integers here. */
module JsText {

  /** The value of `c` as a digit in bases up to 36, or -1. */
  function DigitValue(c: char): (v: int)
    ensures -1 <= v < 36
    ensures '0' <= c <= '9' ==> v == c as int - '0' as int
  {
    if '0' <= c <= '9' then c as int - '0' as int
    else if 'a' <= c <= 'z' then c as int - 'a' as int + 10
    else if 'A' <= c <= 'Z' then c as int - 'A' as int + 10
    else -1
  }

  predicate IsDigitIn(c: char, radix: nat) {
    0 <= DigitValue(c) < radix
  }

  predicate AllDigitsIn(s: string, radix: nat) {
    forall i :: 0 <= i < |s| ==> IsDigitIn(s[i], radix)
  }

  /** The number a string of digits denotes in `radix`, most significant first. */
  function Value(s: string, radix: nat): nat
    requires AllDigitsIn(s, radix)
  {
    if |s| == 0 then 0 else Value(s[..|s| - 1], radix) * radix + DigitValue(s[|s| - 1])
  }

  function DigitChar(d: nat): (c: char)
    requires d < 10
    ensures DigitValue(c) == d
  {
    ('0' as int + d) as char
  }

  /** `${n}` for a non-negative integer: its decimal digits. */
  function Decimal(n: nat): (s: string)
    ensures |s| >= 1 && AllDigitsIn(s, 10)
    ensures |s| > 1 ==> s[0] != '0'
    decreases n
  {
    if n < 10 then [DigitChar(n)] else Decimal(n / 10) + [DigitChar(n % 10)]
  }

  /** Reading the decimal digits back gives the number. */
  lemma {:induction false} DecimalValue(n: nat)
    ensures Value(Decimal(n), 10) == n
    decreases n
  {
    if n >= 10 {
      var s := Decimal(n);
      assert s[..|s| - 1] == Decimal(n / 10);
      DecimalValue(n / 10);
    }
  }

  /** `s.substring(start, end)`: both bounds clamped to the string, swapped
      when out of order. */
  function Substring(s: string, start: int, end: int): (r: string)
    ensures var lo := Clamp(if start <= end then start else end, |s|);
            var hi := Clamp(if start <= end then end else start, |s|);
            r == s[lo..hi]
    ensures |r| <= |s|
  {
    var a := Clamp(start, |s|);
    var b := Clamp(end, |s|);
    if a <= b then s[a..b] else s[b..a]
  }

  function Clamp(i: int, len: nat): (r: nat)
    ensures r <= len
  {
    if i < 0 then 0 else if i > len then len else i
  }

  /** The characters `parseInt` skips before the number (StrWhiteSpaceChar:
      white space, line terminators and every space separator). */
  predicate IsJsWhitespace(c: char) {
    var n := c as int;
    || 0x09 <= n <= 0x0D      // tab, line feed, vertical tab, form feed, carriage return
    || n == 0x20 || n == 0xA0 || n == 0x1680
    || 0x2000 <= n <= 0x200A
    || n == 0x2028 || n == 0x2029 || n == 0x202F || n == 0x205F
    || n == 0x3000 || n == 0xFEFF
  }

  function TrimStart(s: string): (t: string)
    ensures |t| <= |s| && t == s[|s| - |t|..]
    ensures |t| > 0 ==> !IsJsWhitespace(t[0])
    ensures forall i :: 0 <= i < |s| - |t| ==> IsJsWhitespace(s[i])
  {
    if |s| > 0 && IsJsWhitespace(s[0]) then TrimStart(s[1..]) else s
  }

  /** The longest prefix of `s` made of digits in `radix`. */
  function LeadingDigits(s: string, radix: nat): (d: string)
    ensures d <= s && AllDigitsIn(d, radix)
    ensures |d| < |s| ==> !IsDigitIn(s[|d|], radix)
  {
    if |s| > 0 && IsDigitIn(s[0], radix) then [s[0]] + LeadingDigits(s[1..], radix) else ""
  }

  /** A JavaScript number as `parseInt` can return it. */
  datatype Number = NaN | Int(value: int)

  /** `parseInt(s)` with no radix: leading white space skipped, an optional
      sign, then the magnitude. */
  function ParseInt(s: string): (r: Number)
    ensures TrimStart(s) == "" ==> r == NaN
    ensures var t := TrimStart(s);
            var u := if |t| > 0 && (t[0] == '-' || t[0] == '+') then t[1..] else t;
            r.Int? ==> |u| > 0 && IsDigitIn(u[0], 10)
    ensures var t := TrimStart(s);
            r.Int? ==> (if |t| > 0 && t[0] == '-' then r.value <= 0 else r.value >= 0)
  {
    var t := TrimStart(s);
    if |t| > 0 && t[0] == '-' then Negate(ParseMagnitude(t[1..]))
    else if |t| > 0 && t[0] == '+' then ParseMagnitude(t[1..])
    else ParseMagnitude(t)
  }

  function Negate(x: Number): Number {
    match x
    case NaN => NaN
    case Int(v) => Int(-v)
  }

  /** The unsigned part of `parseInt`: a `0x`/`0X` prefix switches to base 16,
      then the longest run of digits counts; `NaN` when there are none. */
  function ParseMagnitude(u: string): (r: Number)
    ensures r.Int? ==> r.value >= 0
    ensures r.Int? ==> |u| > 0 && IsDigitIn(u[0], 10)
  {
    var hex := |u| >= 2 && u[0] == '0' && (u[1] == 'x' || u[1] == 'X');
    var radix := if hex then 16 else 10;
    var digits := LeadingDigits(if hex then u[2..] else u, radix);
    if |digits| == 0 then NaN else Int(Value(digits, radix))
  }

  /** A decimal integer followed by text that cannot continue it (`"200px"`)
      parses to that integer. */
  lemma ParseIntOfDecimal(n: nat, rest: string)
    requires rest == "" || (!IsDigitIn(rest[0], 10) && rest[0] != 'x' && rest[0] != 'X')
    ensures ParseInt(Decimal(n) + rest) == Int(n)
  {
    DecimalValue(n);
    ParseIntOfDigits(Decimal(n), rest);
  }

  /** The same with a minus sign in front. */
  lemma ParseIntOfNegativeDecimal(n: nat, rest: string)
    requires rest == "" || (!IsDigitIn(rest[0], 10) && rest[0] != 'x' && rest[0] != 'X')
    ensures ParseInt("-" + (Decimal(n) + rest)) == Int(-(n as int))
  {
    DecimalValue(n);
    ParseMagnitudeOfDigits(Decimal(n), rest);
    ParseIntOfNegative(Decimal(n) + rest);
  }

  lemma ParseIntOfNegative(u: string)
    ensures ParseInt("-" + u) == Negate(ParseMagnitude(u))
  {
    var s := "-" + u;
    assert s[0] == '-' && s[1..] == u;
    ParseIntOfMinus(s);
  }

  lemma ParseIntOfDigits(d: string, rest: string)
    requires |d| >= 1 && AllDigitsIn(d, 10) && (|d| > 1 ==> d[0] != '0')
    requires rest == "" || (!IsDigitIn(rest[0], 10) && rest[0] != 'x' && rest[0] != 'X')
    ensures ParseInt(d + rest) == Int(Value(d, 10))
  {
    var s := d + rest;
    assert s[0] == d[0] && IsDigitIn(d[0], 10);
    DecimalDigitIsPlain(s[0]);
    ParseIntOfUnsigned(s);
    ParseMagnitudeOfDigits(d, rest);
  }

  /** A decimal digit is neither white space nor a sign. */
  lemma DecimalDigitIsPlain(c: char)
    requires IsDigitIn(c, 10)
    ensures '0' <= c <= '9'
    ensures !IsJsWhitespace(c) && c != '-' && c != '+'
  {
  }

  /** Text that opens with neither white space nor a sign is all magnitude. */
  lemma ParseIntOfUnsigned(s: string)
    requires |s| > 0 && !IsJsWhitespace(s[0]) && s[0] != '-' && s[0] != '+'
    ensures ParseInt(s) == ParseMagnitude(s)
  {
    TrimStartUnchanged(s);
  }

  lemma ParseIntOfMinus(s: string)
    requires |s| > 0 && s[0] == '-'
    ensures ParseInt(s) == Negate(ParseMagnitude(s[1..]))
  {
    TrimStartUnchanged(s);
  }

  lemma TrimStartUnchanged(s: string)
    requires |s| > 0 && !IsJsWhitespace(s[0])
    ensures TrimStart(s) == s
  {
  }

  lemma ParseMagnitudeOfDigits(d: string, rest: string)
    requires |d| >= 1 && AllDigitsIn(d, 10) && (|d| > 1 ==> d[0] != '0')
    requires rest == "" || (!IsDigitIn(rest[0], 10) && rest[0] != 'x' && rest[0] != 'X')
    ensures ParseMagnitude(d + rest) == Int(Value(d, 10))
  {
    var u := d + rest;
    if |d| >= 2 {
      assert u[1] == d[1];
    } else if |u| >= 2 {
      assert u[1] == rest[0];
    }
    LeadingDigitsOfDigits(d, rest, 10);
  }

  /** A run of digits followed by a non-digit is exactly the leading digits. */
  lemma {:induction false} LeadingDigitsOfDigits(d: string, rest: string, radix: nat)
    requires AllDigitsIn(d, radix)
    requires rest == "" || !IsDigitIn(rest[0], radix)
    ensures LeadingDigits(d + rest, radix) == d
    decreases |d|
  {
    if |d| > 0 {
      assert (d + rest)[1..] == d[1..] + rest;
      LeadingDigitsOfDigits(d[1..], rest, radix);
    }
  }

  /** White space in front of the text does not change what `parseInt` returns. */
  lemma ParseIntSkipsWhitespace(ws: string, s: string)
    requires forall i :: 0 <= i < |ws| ==> IsJsWhitespace(ws[i])
    ensures ParseInt(ws + s) == ParseInt(s)
  {
    TrimStartOfWhitespace(ws, s);
  }

  lemma {:induction false} TrimStartOfWhitespace(ws: string, s: string)
    requires forall i :: 0 <= i < |ws| ==> IsJsWhitespace(ws[i])
    ensures TrimStart(ws + s) == TrimStart(s)
    decreases |ws|
  {
    if |ws| > 0 {
      var t := ws + s;
      assert t[0] == ws[0];
      assert IsJsWhitespace(t[0]);
      assert t[1..] == ws[1..] + s;
      assert TrimStart(t) == TrimStart(t[1..]);
      assert forall i :: 0 <= i < |ws[1..]| ==> ws[1..][i] == ws[i + 1];
      TrimStartOfWhitespace(ws[1..], s);
    } else {
      assert ws + s == s;
    }
  }
}

=== FILE: posix_path.dfy ===
/** The parts of Node's POSIX `path` module the filename builder uses:
    `basename(p)`, `basename(p, suffix)` and `extname(p)`. */
module PosixPath {
  import opened Basics

  /** Index of the last `ch` in `s`, or -1. */
  function LastIndexOf(s: string, ch: char): (k: int)
    ensures -1 <= k < |s|
    ensures k >= 0 ==> s[k] == ch
    ensures forall i :: k < i < |s| ==> s[i] != ch
  {
    if |s| == 0 then -1
    else if s[|s| - 1] == ch then |s| - 1
    else LastIndexOf(s[..|s| - 1], ch)
  }

  /** `p` without its run of trailing separators. */
  function TrimTrailingSlashes(p: string): (t: string)
    ensures t <= p
    ensures |t| == 0 || t[|t| - 1] != '/'
    ensures forall i :: |t| <= i < |p| ==> p[i] == '/'
  {
    if |p| > 0 && p[|p| - 1] == '/' then TrimTrailingSlashes(p[..|p| - 1]) else p
  }

  /** Where the last path component starts. */
  function ComponentStart(p: string): nat {
    LastIndexOf(TrimTrailingSlashes(p), '/') + 1
  }

  /** `path.basename(p)`: the last component, trailing separators ignored. */
  function Basename(p: string): (b: string)
    ensures |b| <= |p|
    ensures forall i :: 0 <= i < |b| ==> b[i] != '/'
    ensures ComponentStart(p) + |b| <= |p| && b == p[ComponentStart(p)..ComponentStart(p) + |b|]
    ensures forall i :: ComponentStart(p) + |b| <= i < |p| ==> p[i] == '/'
  {
    var t := TrimTrailingSlashes(p);
    t[ComponentStart(p)..]
  }

  /** `path.extname(p)`: from the last `.` of the last component, unless that
      dot opens the component or the component is `..`. */
  function Extname(p: string): (e: string)
    ensures var b := Basename(p);
      e != "" <==> (exists i :: 1 <= i < |b| && b[i] == '.') && b != ".."
    ensures e != "" ==> e[0] == '.' && |e| < |Basename(p)| && EndsWith(Basename(p), e)
    ensures forall i :: 1 <= i < |e| ==> e[i] != '.'
  {
    var b := Basename(p);
    var d := LastIndexOf(b, '.');
    if d <= 0 || b == ".." then "" else b[d..]
  }

  /** `path.basename(p, suffix)`: the last component with `suffix` cut off when
      it is a proper tail of it. The last two branches are Node's behaviour when
      the component is at most as long as the suffix and matches its tail. */
  function BasenameWithSuffix(p: string, suffix: string): (r: string)
    ensures suffix == "" ==> r == Basename(p)
    ensures 0 < |suffix| < |Basename(p)| && EndsWith(Basename(p), suffix) ==>
              r + suffix == Basename(p)
    ensures suffix == p ==> r == ""
    ensures |suffix| > |p| ==> r == Basename(p)
    ensures suffix == Basename(p) && suffix != p ==> r == Basename(p)
    ensures 0 < |suffix| <= |p| && suffix != p && !EndsWith(Basename(p), suffix) && !EndsWith(suffix, Basename(p)) ==>
              r == Basename(p)
  {
    var b := Basename(p);
    if |suffix| == 0 || |suffix| > |p| then b
    else if suffix == p then ""
    else if |suffix| < |b| && EndsWith(b, suffix) then b[..|b| - |suffix|]
    else if |b| < |suffix| && EndsWith(suffix, b) then p[ComponentStart(p)..]
    else b
  }

  /** Cutting off the extension and putting it back gives the basename: the
      `stem + ext` of the filename builder is the basename of the name. */
  lemma StemPlusExtension(p: string)
    ensures BasenameWithSuffix(p, Extname(p)) + Extname(p) == Basename(p)
  {
  }
}

=== FILE: server.dfy ===
/** The server as a whole: requests dispatched to their handlers over one
    upload index, and what sequences of requests do to it. */
module Server {
  import opened Basics
  import opened UploadIndex
  import opened Http
  import opened Admission
  import opened Handlers
  import JsText

  datatype Request =
    | GetFiles
    | PostFile(incoming: Option<IncomingFile>)
    | DeleteById(id: string)
    | GetOptimized(id: string, query: OptimizeQuery)

  /** Everything outside the server one request depends on: clocks, random
      draws and how each provider call settles. */
  datatype World = World(
    env: UploadEnv,
    upload: Settled<ProviderAsset>,
    destroy: Settled<string>,
    url: Settled<string>)

  function Serve(index: Index, req: Request, w: World): Exchange {
    match req
    case GetFiles => ListFiles(index)
    case PostFile(incoming) => PostUpload(index, incoming, w.env, w.upload)
    case DeleteById(id) => DeleteFile(index, id, w.destroy)
    case GetOptimized(id, q) => Optimize(index, id, q, w.url)
  }

  /** The only ways the index changes: one record appended at the end, or one
      record taken out with the others kept in order. */
  ghost predicate IndexStep(before: Index, after: Index) {
    || after == before
    || (|after| == |before| + 1 && after[..|before|] == before)
    || (exists i :: 0 <= i < |before| && after == RemoveAt(before, i))
  }

  /** Every request changes the index by at most one append or one removal,
      and only a 200 response comes with a change. */
  lemma ServeStepsIndex(index: Index, req: Request, w: World)
    ensures IndexStep(index, Serve(index, req, w).index)
    ensures Serve(index, req, w).index != index ==> Serve(index, req, w).response.status == 200
  {
    match req
    case DeleteById(id) =>
      var k := FindFirst(index, id);
      if k >= 0 && w.destroy.Resolved? {
        assert Serve(index, req, w).index == RemoveAt(index, k);
      }
    case _ =>
  }

  /** The provider hands out a public id the index does not hold yet. */
  predicate FreshUploadId(index: Index, w: World) {
    w.upload.Resolved? ==> w.upload.value.publicId !in Ids(index)
  }

  /** With fresh provider ids, no request makes two records share an id. */
  lemma ServeKeepsIdsUnique(index: Index, req: Request, w: World)
    requires IdsUnique(index)
    requires FreshUploadId(index, w)
    ensures IdsUnique(Serve(index, req, w).index)
  {
    var after := Serve(index, req, w).index;
    match req
    case PostFile(incoming) =>
      if after != index {
        var rec := after[|index|];
        assert after == index + [rec];
        AppendedRecordIsProviders(index, incoming, w);
        AppendFreshKeepsUnique(index, rec);
      }
    case DeleteById(id) =>
      if FindFirst(index, id) >= 0 && w.destroy.Resolved? {
        RemoveFoundLeavesNoId(index, id);
      }
    case _ =>
  }

  /** A record an upload appends carries the provider's public id and the
      transport's size. */
  lemma AppendedRecordIsProviders(index: Index, incoming: Option<IncomingFile>, w: World)
    requires PostUpload(index, incoming, w.env, w.upload).index != index
    ensures var after := PostUpload(index, incoming, w.env, w.upload).index;
            && incoming.Some? && w.upload.Resolved?
            && after == index + [after[|index|]]
            && after[|index|].cloudinaryId == w.upload.value.publicId
            && after[|index|].size == incoming.value.size
  {
    var after := PostUpload(index, incoming, w.env, w.upload).index;
    var f := incoming.value;
    var a := Admit(f, w.env.uploadsDir, w.env.nameTime, w.env.nameRandom);
    assert a.Admitted?;
    assert after == index + [after[|index|]];
  }

  /** After a successful upload the listing holds exactly one record with the
      new id, of the uploaded size, and the totals grow accordingly. */
  lemma UploadThenList(index: Index, f: IncomingFile, w: World)
    requires IdsUnique(index) && FreshUploadId(index, w)
    requires Serve(index, PostFile(Some(f)), w).response.status == 200
    ensures var after := Serve(index, PostFile(Some(f)), w).index;
            var listing := Serve(after, GetFiles, w).response.body;
            && w.upload.Resolved?
            && listing.totalFiles == |index| + 1
            && listing.totalSize == TotalSize(index) + f.size
            && (forall j :: 0 <= j < |listing.files| ==>
                  (listing.files[j].cloudinaryId == w.upload.value.publicId <==> j == |index|))
            && listing.files[|index|].size == f.size
  {
    var after := Serve(index, PostFile(Some(f)), w).index;
    AppendedRecordIsProviders(index, Some(f), w);
    forall j | 0 <= j < |index| ensures after[j].cloudinaryId != w.upload.value.publicId {
      assert after[j] == index[j];
    }
  }

  /** After a successful delete of a unique id the id is gone from the
      listing, and deleting it again is a 404 that changes nothing. */
  lemma DeleteThenDeleteAgain(index: Index, id: string, w: World, w2: World)
    requires IdsUnique(index)
    requires Serve(index, DeleteById(id), w).response.status == 200
    ensures var after := Serve(index, DeleteById(id), w).index;
            && |after| == |index| - 1
            && id !in Ids(after)
            && Serve(after, DeleteById(id), w2)
               == Exchange(after, Response(404, ErrorBody(NotFoundMessage, None)), [])
  {
    var after := Serve(index, DeleteById(id), w).index;
    RemoveFoundLeavesNoId(index, id);
    FindFirstFindsIds(after, id);
  }

  /** `/optimize` answers the same whatever the index holds. */
  lemma OptimizeIgnoresIndex(i1: Index, i2: Index, id: string, q: OptimizeQuery, w: World)
    ensures Serve(i1, GetOptimized(id, q), w).response == Serve(i2, GetOptimized(id, q), w).response
    ensures Serve(i1, GetOptimized(id, q), w).index == i1
  {
  }

  /** `?width=200&height=100&quality=auto` and the like: decimal sizes are
      parsed as those numbers and the format defaults to `auto`. */
  lemma OptimizeScenario(width: nat, height: nat)
    ensures var q := OptimizeQuery(Some(JsText.Decimal(width)), Some(JsText.Decimal(height)), Some("auto"), None);
            BuildTransformation(q)
            == Transformation("auto", "auto", Some(JsText.Int(width)), Some(JsText.Int(height)))
  {
    var ws, hs := JsText.Decimal(width), JsText.Decimal(height);
    DecimalParses(width);
    DecimalParses(height);
    var t := BuildTransformation(OptimizeQuery(Some(ws), Some(hs), Some("auto"), None));
    assert t.width == Some(JsText.Int(width));
    assert t.height == Some(JsText.Int(height));
  }

  lemma DecimalParses(n: nat)
    ensures JsText.ParseInt(JsText.Decimal(n)) == JsText.Int(n)
  {
    JsText.ParseIntOfDecimal(n, "");
    assert JsText.Decimal(n) + "" == JsText.Decimal(n);
  }

  /** A record that differs from the others only in its id. */
  function RecordWithId(id: string): FileMetadata {
    FileMetadata("", id, 0, "", "", id, "", None, None, None, None)
  }

  /** Two deletes overlapping across their destroy calls, as the handler is
      written: each finds its position before awaiting the provider and
      splices that position afterwards. With ids `a`, `b`, `c` and both
      deletes waiting, the first splice shifts `b` down, so the second takes
      out `c`, and `b` stays listed although the provider destroyed it. */
  lemma StaleSpliceRemovesWrongRecord()
    ensures var index := [RecordWithId("a"), RecordWithId("b"), RecordWithId("c")];
            var after := SpliceAt(SpliceAt(index, 0), 1);
            && FindFirst(index, "a") == 0
            && FindFirst(index, "b") == 1
            && "b" in Ids(after)
            && "c" !in Ids(after)
  {
    var index := [RecordWithId("a"), RecordWithId("b"), RecordWithId("c")];
    var mid := SpliceAt(index, 0);
    assert mid == [RecordWithId("b"), RecordWithId("c")];
    var after := SpliceAt(mid, 1);
    assert after == [RecordWithId("b")];
    assert after[0].cloudinaryId == "b";
  }

  /** Overlapping deletes of two ids, each looking its id up again once its
      destroy call has settled: in either order both ids are gone, every other
      id stays, and the ids remain unique. */
  lemma InterleavedDeletesCorrected(index: Index, a: string, b: string)
    requires IdsUnique(index)
    ensures Ids(RemoveById(RemoveById(index, a), b)) == Ids(index) - {a, b}
    ensures Ids(RemoveById(RemoveById(index, b), a)) == Ids(index) - {a, b}
    ensures IdsUnique(RemoveById(RemoveById(index, a), b))
  {
    RemoveByIdRemovesOnlyId(index, a);
    RemoveByIdRemovesOnlyId(RemoveById(index, a), b);
    RemoveByIdRemovesOnlyId(index, b);
    RemoveByIdRemovesOnlyId(RemoveById(index, b), a);
  }

  /** The scenario above with the corrected removal: `b` and `a` are both gone
      and `c` stays. */
  lemma RefindDeletesScenario()
    ensures var index := [RecordWithId("a"), RecordWithId("b"), RecordWithId("c")];
            Ids(RemoveById(RemoveById(index, "a"), "b")) == {"c"}
  {
    var index := [RecordWithId("a"), RecordWithId("b"), RecordWithId("c")];
    RemoveByIdAtFront(index, "a");
    var mid := RemoveById(index, "a");
    RemoveByIdAtFront(mid, "b");
    var after := RemoveById(mid, "b");
    assert after == index[2..];
    assert Ids(after) == {"c"} by {
      assert |after| == 1 && after[0].cloudinaryId == "c";
    }
  }

  /** Removing the id the first record carries drops that record. */
  lemma RemoveByIdAtFront(index: Index, id: string)
    requires |index| > 0 && index[0].cloudinaryId == id
    ensures RemoveById(index, id) == index[1..]
  {
    assert FindFirst(index, id) == 0;
  }
}

=== FILE: upload_index.dfy ===
/** The server's in-memory upload index (`uploadedFiles`): an ordered
    sequence of metadata records, appended to on upload and spliced on delete. */
module UploadIndex {
  import opened Basics

  /** One record of the index, as the upload handler builds it. Fields the
      provider may leave undefined are optional. */
  datatype FileMetadata = FileMetadata(
    originalName: string,
    filename: string,
    size: nat,
    mimetype: string,
    url: string,
    cloudinaryId: string,
    uploadDate: string,
    format: Option<string>,
    width: Option<int>,
    height: Option<int>,
    resourceType: Option<string>)

  type Index = seq<FileMetadata>

  /** The sum of `size` over the records: the reference definition of `totalSize`. */
  function TotalSize(index: Index): nat {
    if |index| == 0 then 0 else index[0].size + TotalSize(index[1..])
  }

  /** `index.reduce((sum, file) => sum + file.size, acc)`: a left fold, which
      adds the total size to the accumulator. */
  function ReduceSizes(index: Index, acc: nat): (r: nat)
    ensures r == acc + TotalSize(index)
  {
    if |index| == 0 then acc else ReduceSizes(index[1..], acc + index[0].size)
  }

  /** Appending a record adds its size to the total. */
  lemma {:induction false} TotalSizeAppend(index: Index, r: FileMetadata)
    ensures TotalSize(index + [r]) == TotalSize(index) + r.size
    decreases |index|
  {
    if |index| > 0 {
      assert (index + [r])[1..] == index[1..] + [r];
      TotalSizeAppend(index[1..], r);
    } else {
      assert index + [r] == [r];
    }
  }

  /** Taking one record out removes its size from the total. */
  lemma {:induction false} TotalSizeRemoveAt(index: Index, i: nat)
    requires i < |index|
    ensures TotalSize(RemoveAt(index, i)) + index[i].size == TotalSize(index)
    decreases |index|
  {
    if i > 0 {
      assert RemoveAt(index, i)[1..] == RemoveAt(index[1..], i - 1);
      TotalSizeRemoveAt(index[1..], i - 1);
    } else {
      assert RemoveAt(index, 0) == index[1..];
    }
  }

  /** `index.findIndex(file => file.cloudinaryId === id)`: the position of the
      first record with that id, or -1 when there is none. */
  function FindFirst(index: Index, id: string): (k: int)
    ensures -1 <= k < |index|
    ensures k >= 0 ==> index[k].cloudinaryId == id
    ensures forall j :: 0 <= j < |index| && (k == -1 || j < k) ==> index[j].cloudinaryId != id
  {
    if |index| == 0 then -1
    else if index[0].cloudinaryId == id then 0
    else
      var k := FindFirst(index[1..], id);
      if k == -1 then -1 else k + 1
  }

  /** `index.splice(i, 1)`: the record at `i` taken out, the others kept in order. */
  function RemoveAt(index: Index, i: nat): (r: Index)
    requires i < |index|
    ensures |r| == |index| - 1
    ensures forall j :: 0 <= j < i ==> r[j] == index[j]
    ensures forall j :: i <= j < |r| ==> r[j] == index[j + 1]
    ensures multiset(r) + multiset{index[i]} == multiset(index)
  {
    assert index == index[..i] + [index[i]] + index[i + 1..];
    index[..i] + index[i + 1..]
  }

  /** `index.splice(i, 1)` for any `i >= 0`: a position past the end removes nothing. */
  function SpliceAt(index: Index, i: nat): (r: Index)
    ensures i < |index| ==> r == RemoveAt(index, i)
    ensures i >= |index| ==> r == index
  {
    if i < |index| then RemoveAt(index, i) else index
  }

  /** Looking the id up and splicing out the record found, in one step. */
  function RemoveById(index: Index, id: string): (r: Index)
    ensures FindFirst(index, id) == -1 ==> r == index
    ensures FindFirst(index, id) >= 0 ==> r == RemoveAt(index, FindFirst(index, id))
  {
    var k := FindFirst(index, id);
    if k == -1 then index else RemoveAt(index, k)
  }

  function Ids(index: Index): set<string> {
    set j | 0 <= j < |index| :: index[j].cloudinaryId
  }

  /** No two records share a `cloudinaryId`. */
  predicate IdsUnique(index: Index) {
    forall i, j :: 0 <= i < j < |index| ==> index[i].cloudinaryId != index[j].cloudinaryId
  }

  /** `FindFirst` finds an id exactly when some record carries it. */
  lemma FindFirstFindsIds(index: Index, id: string)
    ensures FindFirst(index, id) >= 0 <==> id in Ids(index)
  {
    var k := FindFirst(index, id);
    if id in Ids(index) {
      var j :| 0 <= j < |index| && index[j].cloudinaryId == id;
      assert k != -1;
    }
  }

  /** With unique ids, taking out the record an id was found at leaves no
      record with that id. */
  lemma RemoveFoundLeavesNoId(index: Index, id: string)
    requires IdsUnique(index)
    requires FindFirst(index, id) >= 0
    ensures id !in Ids(RemoveAt(index, FindFirst(index, id)))
    ensures IdsUnique(RemoveAt(index, FindFirst(index, id)))
  {
    var k := FindFirst(index, id);
    var r := RemoveAt(index, k);
    forall j | 0 <= j < |r| ensures r[j].cloudinaryId != id {
      if j < k {
        assert r[j] == index[j];
      } else {
        assert r[j] == index[j + 1];
      }
    }
    forall a, b | 0 <= a < b < |r| ensures r[a].cloudinaryId != r[b].cloudinaryId {
      var a' := if a < k then a else a + 1;
      var b' := if b < k then b else b + 1;
      assert r[a] == index[a'] && r[b] == index[b'];
    }
  }

  /** Appending a record whose id is new keeps the ids unique. */
  lemma AppendFreshKeepsUnique(index: Index, rec: FileMetadata)
    requires IdsUnique(index)
    requires rec.cloudinaryId !in Ids(index)
    ensures IdsUnique(index + [rec])
    ensures Ids(index + [rec]) == Ids(index) + {rec.cloudinaryId}
  {
    var r := index + [rec];
    forall i, j | 0 <= i < j < |r| ensures r[i].cloudinaryId != r[j].cloudinaryId {
      if j == |index| {
        assert r[i] == index[i];
      }
    }
    forall x | x in Ids(r) ensures x in Ids(index) + {rec.cloudinaryId} {
      var j :| 0 <= j < |r| && r[j].cloudinaryId == x;
      if j < |index| {
        assert r[j] == index[j];
      }
    }
    forall x | x in Ids(index) + {rec.cloudinaryId} ensures x in Ids(r) {
      if x in Ids(index) {
        var j :| 0 <= j < |index| && index[j].cloudinaryId == x;
        assert r[j] == index[j];
      } else {
        assert r[|index|] == rec;
      }
    }
  }

  /** With unique ids, removing by id takes out exactly that id and nothing
      else, and keeps the ids unique. */
  lemma RemoveByIdRemovesOnlyId(index: Index, id: string)
    requires IdsUnique(index)
    ensures Ids(RemoveById(index, id)) == Ids(index) - {id}
    ensures IdsUnique(RemoveById(index, id))
    ensures |RemoveById(index, id)| == if id in Ids(index) then |index| - 1 else |index|
  {
    FindFirstFindsIds(index, id);
    var k := FindFirst(index, id);
    if k >= 0 {
      var r := RemoveAt(index, k);
      RemoveFoundLeavesNoId(index, id);
      forall x | x in Ids(index) && x != id ensures x in Ids(r) {
        var j :| 0 <= j < |index| && index[j].cloudinaryId == x;
        if j < k {
          assert r[j] == index[j];
        } else {
          assert j != k;
          assert r[j - 1] == index[j];
        }
      }
      forall x | x in Ids(r) ensures x in Ids(index) {
        var j :| 0 <= j < |r| && r[j].cloudinaryId == x;
        if j < k {
          assert r[j] == index[j];
        } else {
          assert r[j] == index[j + 1];
        }
      }
    }
  }
}

=== FILE: uploader_state.dfy ===
/** The client's upload-status list: one entry per file the user selected,
    appended on selection, updated at one position by the progress, success
    and failure of that file's upload, and filtered on removal. */
module UploaderState {
  import opened Basics

  datatype Status = Uploading | Success | Error

  /** One entry of the list the uploader shows. */
  datatype UploadedFile = UploadedFile(
    name: string,
    size: nat,
    fileType: string,
    progress: int,
    status: Status,
    fileUrl: Option<string>,
    error: Option<string>)

  type Files = seq<UploadedFile>

  /** A file as the browser's file picker or drop hands it over. */
  datatype SelectedFile = SelectedFile(name: string, size: nat, fileType: string)

  const UploadFailed := "Upload failed"

  /** `after` differs from `before` at most at position `i`. */
  predicate OnlyAt(before: Files, after: Files, i: int) {
    |after| == |before| && forall j :: 0 <= j < |before| && j != i ==> after[j] == before[j]
  }

  /** The entry `i` keeps the name, size and type of the file it stands for. */
  predicate SameFile(a: UploadedFile, b: UploadedFile) {
    a.name == b.name && a.size == b.size && a.fileType == b.fileType
  }

  /** The entries a selection adds: each file's name, size and type, no
      progress yet, uploading. */
  function NewEntries(selected: seq<SelectedFile>): (r: Files)
    ensures |r| == |selected|
    ensures forall k :: 0 <= k < |selected| ==>
              && r[k].name == selected[k].name
              && r[k].size == selected[k].size
              && r[k].fileType == selected[k].fileType
              && r[k].progress == 0
              && r[k].status == Uploading
              && r[k].fileUrl.None? && r[k].error.None?
  {
    if |selected| == 0 then []
    else
      var f := selected[0];
      [UploadedFile(f.name, f.size, f.fileType, 0, Uploading, None, None)] + NewEntries(selected[1..])
  }

  /** The positions the uploads of a selection report to: `files.length + k`
      for the `k`-th selected file. */
  function UploadIndices(base: nat, n: nat): (r: seq<nat>)
    ensures |r| == n
    ensures forall k :: 0 <= k < n ==> r[k] == base + k
  {
    if n == 0 then [] else UploadIndices(base, n - 1) + [base + n - 1]
  }

  /** `handleFiles`: the new entries go after the existing ones, in selection
      order, and the `k`-th upload is told the position its entry got. */
  function HandleFiles(files: Files, selected: seq<SelectedFile>): (r: (Files, seq<nat>))
    ensures |r.0| == |files| + |selected|
    ensures r.0[..|files|] == files
    ensures r.0 == files + NewEntries(selected)
    ensures |r.1| == |selected|
    ensures forall k :: 0 <= k < |selected| ==> r.1[k] == |files| + k
    ensures forall k :: 0 <= k < |selected| ==>
              && r.1[k] < |r.0|
              && r.0[r.1[k]].name == selected[k].name
              && r.0[r.1[k]].size == selected[k].size
              && r.0[r.1[k]].fileType == selected[k].fileType
              && r.0[r.1[k]].progress == 0
              && r.0[r.1[k]].status == Uploading
  {
    var added := NewEntries(selected);
    var indices := UploadIndices(|files|, |selected|);
    assert (files + added)[..|files|] == files;
    assert forall k :: 0 <= k < |selected| ==> (files + added)[indices[k]] == added[k];
    (files + added, indices)
  }

  /** `progressEvent.total || 1`: an absent or zero total counts as one byte. */
  function Denominator(total: Option<nat>): (d: nat)
    ensures d >= 1
    ensures total.Some? && total.value > 0 ==> d == total.value
    ensures !(total.Some? && total.value > 0) ==> d == 1
  {
    if total.Some? && total.value > 0 then total.value else 1
  }

  /** `Math.round(loaded * 100 / (total || 1))` on exact rationals: the
      nearest integer to the percentage, halves rounded up. */
  function PercentCompleted(loaded: nat, total: Option<nat>): (r: nat)
    ensures var d := Denominator(total);
            d * (2 * r) <= 200 * loaded + d < d * (2 * r + 2)
  {
    var d := Denominator(total);
    var r := (200 * loaded + d) / (2 * d);
    DivBounds(200 * loaded + d, 2 * d);
    assert d * (2 * r) == (2 * d) * r;
    assert d * (2 * r + 2) == (2 * d) * (r + 1);
    r
  }

  lemma DivBounds(a: nat, b: nat)
    requires b > 0
    ensures b * (a / b) <= a < b * (a / b + 1)
  {
  }

  /** The percentage reaches 100 exactly when everything is sent, and never
      passes it while the sent count stays within the total. */
  lemma PercentBounds(loaded: nat, total: nat)
    requires 0 < total
    ensures loaded <= total ==> PercentCompleted(loaded, Some(total)) <= 100
    ensures loaded == total ==> PercentCompleted(loaded, Some(total)) == 100
    ensures loaded == 0 ==> PercentCompleted(loaded, Some(total)) == 0
  {
    var r := PercentCompleted(loaded, Some(total));
    assert total * (2 * r) <= 200 * loaded + total < total * (2 * r + 2);
    if loaded <= total {
      assert 200 * loaded + total <= total * 201;
      OrderByFactor(total, 2 * r, 201);
    }
    if loaded == total {
      assert total * 201 < total * (2 * r + 2);
      OrderByFactor(total, 201, 2 * r + 2);
    }
    if loaded == 0 {
      OrderByFactor(total, 2 * r, 1);
    }
  }

  /** Without a total the divisor falls back to 1, so the percentage is a
      hundred times the sent count and passes 100 once two bytes are sent. */
  lemma PercentWithoutTotal(loaded: nat)
    ensures PercentCompleted(loaded, None) == 100 * loaded
    ensures loaded >= 2 ==> PercentCompleted(loaded, None) > 100
  {
    var r := PercentCompleted(loaded, None);
    assert 2 * r <= 200 * loaded + 1 < 2 * r + 2;
  }

  /** Comparing two products with the same positive factor compares the others. */
  lemma OrderByFactor(c: nat, a: nat, b: nat)
    requires c > 0 && c * a <= c * b
    ensures a <= b
  {
  }

  /** The progress handler: only entry `fileIndex` changes, and only its progress. */
  function ApplyProgress(files: Files, fileIndex: int, percent: int): (r: Files)
    ensures OnlyAt(files, r, fileIndex)
    ensures 0 <= fileIndex < |files| ==>
              && SameFile(r[fileIndex], files[fileIndex])
              && r[fileIndex].progress == percent
              && r[fileIndex].status == files[fileIndex].status
              && r[fileIndex].fileUrl == files[fileIndex].fileUrl
              && r[fileIndex].error == files[fileIndex].error
  {
    seq(|files|, j requires 0 <= j < |files| =>
      if j == fileIndex then files[j].(progress := percent) else files[j])
  }

  /** The success update: only entry `fileIndex` changes; it becomes a
      finished upload at 100 with the file's URL. */
  function ApplySuccess(files: Files, fileIndex: int, url: string): (r: Files)
    ensures OnlyAt(files, r, fileIndex)
    ensures 0 <= fileIndex < |files| ==>
              && SameFile(r[fileIndex], files[fileIndex])
              && r[fileIndex].status == Success
              && r[fileIndex].progress == 100
              && r[fileIndex].fileUrl == Some(url)
              && r[fileIndex].error == files[fileIndex].error
  {
    seq(|files|, j requires 0 <= j < |files| =>
      if j == fileIndex then files[j].(status := Success, progress := 100, fileUrl := Some(url))
      else files[j])
  }

  /** Why an upload request failed, as the catch block can tell. */
  datatype Failure =
    | HttpFailure(serverError: Option<string>)  // an axios error; the body's `error`, if any
    | OtherFailure                              // anything else thrown in the try block

  /** The message the failure update stores. */
  function FailureMessage(e: Failure): (m: string)
    ensures e.HttpFailure? && Truthy(e.serverError) ==> m == e.serverError.value
    ensures e.OtherFailure? || !Truthy(e.serverError) ==> m == UploadFailed
  {
    match e
    case HttpFailure(serverError) => OrElse(serverError, UploadFailed)
    case OtherFailure => UploadFailed
  }

  /** The failure update: only entry `fileIndex` changes; its status becomes
      an error with the message, and its progress stays where it was. */
  function ApplyFailure(files: Files, fileIndex: int, e: Failure): (r: Files)
    ensures OnlyAt(files, r, fileIndex)
    ensures 0 <= fileIndex < |files| ==>
              && SameFile(r[fileIndex], files[fileIndex])
              && r[fileIndex].status == Error
              && r[fileIndex].progress == files[fileIndex].progress
              && r[fileIndex].fileUrl == files[fileIndex].fileUrl
              && r[fileIndex].error == Some(FailureMessage(e))
  {
    seq(|files|, j requires 0 <= j < |files| =>
      if j == fileIndex then files[j].(status := Error, error := Some(FailureMessage(e)))
      else files[j])
  }

  /** `removeFile`: keep every entry whose position is not `index`. */
  function RemoveFile(files: Files, index: int): (r: Files)
    ensures 0 <= index < |files| ==> r == files[..index] + files[index + 1..]
    ensures !(0 <= index < |files|) ==> r == files
  {
    if |files| == 0 then []
    else
      var rest := RemoveFile(files[1..], index - 1);
      if index == 0 then
        rest
      else
        assert 0 < index < |files| ==> files[1..][..index - 1] + files[1..][index..] == files[1..index] + files[index + 1..];
        assert 0 < index < |files| ==> [files[0]] + files[1..index] == files[..index];
        [files[0]] + rest
  }

  datatype Icon = Camera | Video | Generic

  /** `getFileIcon`: images first, then videos, then everything else. */
  function GetFileIcon(fileType: string): (icon: Icon)
    ensures icon == Camera <==> StartsWith(fileType, "image/")
    ensures icon == Video <==> !StartsWith(fileType, "image/") && StartsWith(fileType, "video/")
    ensures icon == Generic <==> !StartsWith(fileType, "image/") && !StartsWith(fileType, "video/")
  {
    if StartsWith(fileType, "image/") then Camera
    else if StartsWith(fileType, "video/") then Video
    else Generic
  }

  /** What happens to the upload of one entry. */
  datatype Event =
    | Progress(loaded: nat, total: Option<nat>)
    | Succeeded(url: string)
    | Failed(failure: Failure)

  /** One axios callback applied to the entry it belongs to. */
  function Apply(files: Files, fileIndex: int, e: Event): (r: Files)
    ensures OnlyAt(files, r, fileIndex)
    ensures 0 <= fileIndex < |files| ==> SameFile(r[fileIndex], files[fileIndex])
    ensures 0 <= fileIndex < |files| && e.Progress? ==>
              && r[fileIndex].progress == PercentCompleted(e.loaded, e.total)
              && r[fileIndex].status == files[fileIndex].status
    ensures 0 <= fileIndex < |files| && e.Succeeded? ==>
              r[fileIndex].status == Success && r[fileIndex].progress == 100 && r[fileIndex].fileUrl == Some(e.url)
    ensures 0 <= fileIndex < |files| && e.Failed? ==>
              r[fileIndex].status == Error && r[fileIndex].error == Some(FailureMessage(e.failure))
  {
    match e
    case Progress(loaded, total) => ApplyProgress(files, fileIndex, PercentCompleted(loaded, total))
    case Succeeded(url) => ApplySuccess(files, fileIndex, url)
    case Failed(failure) => ApplyFailure(files, fileIndex, failure)
  }

  /** The events of one upload, applied in order. */
  function Replay(files: Files, fileIndex: int, events: seq<Event>): (r: Files)
    ensures |r| == |files|
    decreases |events|
  {
    if |events| == 0 then files
    else Replay(Apply(files, fileIndex, events[0]), fileIndex, events[1..])
  }

  /** However many events an upload reports, the entries of the other files
      stay as they were, and its own entry still describes the same file. */
  lemma {:induction false} ReplayOnlyAt(files: Files, fileIndex: int, events: seq<Event>)
    ensures OnlyAt(files, Replay(files, fileIndex, events), fileIndex)
    ensures 0 <= fileIndex < |files| ==>
              SameFile(Replay(files, fileIndex, events)[fileIndex], files[fileIndex])
    decreases |events|
  {
    if |events| > 0 {
      var next := Apply(files, fileIndex, events[0]);
      ReplayOnlyAt(next, fileIndex, events[1..]);
    }
  }

  /** An upload that reports progress and then succeeds ends at 100 with the
      URL; one that fails ends in an error at the last progress it reported. */
  lemma {:induction false} ReplayTerminal(files: Files, fileIndex: nat, progress: seq<Event>, last: Event)
    requires fileIndex < |files|
    requires forall k :: 0 <= k < |progress| ==> progress[k].Progress?
    requires !last.Progress?
    ensures var r := Replay(files, fileIndex, progress + [last]);
            && |r| == |files|
            && (last.Succeeded? ==>
                  r[fileIndex].status == Success && r[fileIndex].progress == 100
                  && r[fileIndex].fileUrl == Some(last.url))
            && (last.Failed? ==>
                  && r[fileIndex].status == Error
                  && r[fileIndex].error == Some(FailureMessage(last.failure))
                  && r[fileIndex].progress == Replay(files, fileIndex, progress)[fileIndex].progress)
    decreases |progress|
  {
    ReplayOnlyAt(files, fileIndex, progress);
    ReplayAppend(files, fileIndex, progress, [last]);
    var mid := Replay(files, fileIndex, progress);
    assert Replay(mid, fileIndex, [last]) == Apply(mid, fileIndex, last);
  }

  /** Replaying two runs of events is replaying the first, then the second. */
  lemma {:induction false} ReplayAppend(files: Files, fileIndex: int, a: seq<Event>, b: seq<Event>)
    ensures Replay(files, fileIndex, a + b) == Replay(Replay(files, fileIndex, a), fileIndex, b)
    decreases |a|
  {
    if |a| > 0 {
      assert (a + b)[0] == a[0] && (a + b)[1..] == a[1..] + b;
      ReplayAppend(Apply(files, fileIndex, a[0]), fileIndex, a[1..], b);
    } else {
      assert a + b == b;
    }
  }
}

=== FILE: utf8.dfy ===
/** The re-decoding step of the upload filename builder: the multipart parser
    hands over the original file name as Latin-1 (ISO/IEC 8859-1) text, and
    the server turns it back into bytes (`Buffer.from(name, "latin1")`) and
    decodes those bytes as UTF-8 (`toString("utf8")`), RFC 3629. */
module Utf8 {

  type Byte = b: int | 0 <= b < 256

  /** U+FFFD, substituted by the decoder for every ill-formed subsequence. */
  const Replacement: char := '\U{FFFD}'

  predicate IsContinuation(b: Byte) {
    0x80 <= b <= 0xBF
  }

  /** The bytes `Buffer.from(s, "latin1")` produces for one character: the low
      byte of each of its UTF-16 code units. */
  function Latin1Unit(c: char): (bs: seq<Byte>)
    ensures (c as int) < 0x1_0000 ==> bs == [(c as int) % 256]
    ensures (c as int) >= 0x1_0000 ==> |bs| == 2
  {
    var n := c as int;
    if n < 0x1_0000 then [n % 256]
    else
      var high := 0xD800 + (n - 0x1_0000) / 0x400;
      var low := 0xDC00 + (n - 0x1_0000) % 0x400;
      [high % 256, low % 256]
  }

  /** `Buffer.from(s, "latin1")`. */
  function Latin1Bytes(s: string): (bs: seq<Byte>)
    ensures |s| <= |bs| <= 2 * |s|
    ensures IsLatin1Text(s) ==> |bs| == |s| && forall i :: 0 <= i < |s| ==> bs[i] == s[i] as int
  {
    if |s| == 0 then [] else Latin1Unit(s[0]) + Latin1Bytes(s[1..])
  }

  /** Text whose characters are all below U+0100, as a Latin-1 reading yields. */
  predicate IsLatin1Text(s: string) {
    forall i :: 0 <= i < |s| ==> (s[i] as int) < 0x100
  }

  /** The text a Latin-1 reading of raw header bytes yields: one character per byte. */
  function Latin1Chars(bs: seq<Byte>): (s: string)
    ensures |s| == |bs|
    ensures forall i :: 0 <= i < |bs| ==> s[i] as int == bs[i]
  {
    seq(|bs|, i requires 0 <= i < |bs| => bs[i] as char)
  }

  /** One decoding step: the character decoded from the front of `bs` and how
      many bytes it consumed. */
  datatype Step = Step(c: char, len: nat)

  /** Decodes one character from the front of `bs`. A well-formed sequence (the
      byte ranges of section 4 of RFC 3629) yields its scalar value; otherwise
      one U+FFFD replaces the maximal prefix of a well-formed sequence. */
  function DecodeStep(bs: seq<Byte>): (r: Step)
    requires |bs| > 0
    ensures 1 <= r.len <= |bs|
    ensures bs[0] < 0x80 ==> r == Step(bs[0] as char, 1)
  {
    var xs: seq<int> := bs;
    var b0 := xs[0];
    if b0 < 0x80 then Step(b0 as char, 1)
    else if 0xC2 <= b0 <= 0xDF then
      if |bs| >= 2 && IsContinuation(bs[1]) then
        Step(((b0 - 0xC0) * 0x40 + (xs[1] - 0x80)) as char, 2)
      else Step(Replacement, 1)
    else if 0xE0 <= b0 <= 0xEF then
      var lo := if b0 == 0xE0 then 0xA0 else 0x80;
      var hi := if b0 == 0xED then 0x9F else 0xBF;
      if |bs| < 2 || !(lo <= xs[1] <= hi) then Step(Replacement, 1)
      else if |bs| < 3 || !IsContinuation(bs[2]) then Step(Replacement, 2)
      else Step(((b0 - 0xE0) * 0x1000 + (xs[1] - 0x80) * 0x40 + (xs[2] - 0x80)) as char, 3)
    else if 0xF0 <= b0 <= 0xF4 then
      var lo := if b0 == 0xF0 then 0x90 else 0x80;
      var hi := if b0 == 0xF4 then 0x8F else 0xBF;
      if |bs| < 2 || !(lo <= xs[1] <= hi) then Step(Replacement, 1)
      else if |bs| < 3 || !IsContinuation(bs[2]) then Step(Replacement, 2)
      else if |bs| < 4 || !IsContinuation(bs[3]) then Step(Replacement, 3)
      else Step(((b0 - 0xF0) * 0x4_0000 + (xs[1] - 0x80) * 0x1000
                 + (xs[2] - 0x80) * 0x40 + (xs[3] - 0x80)) as char, 4)
    else Step(Replacement, 1)
  }

  /** `buffer.toString("utf8")`. */
  function Decode(bs: seq<Byte>): (s: string)
    ensures |s| <= |bs|
    ensures |bs| > 0 ==> |s| > 0
    ensures (forall i :: 0 <= i < |bs| ==> bs[i] < 0x80) ==>
              |s| == |bs| && forall i :: 0 <= i < |bs| ==> s[i] as int == bs[i]
    decreases |bs|
  {
    if |bs| == 0 then ""
    else
      var st := DecodeStep(bs);
      [st.c] + Decode(bs[st.len..])
  }

  /** The UTF-8 encoding of one character (section 3 of RFC 3629). */
  function EncodeChar(c: char): (bs: seq<Byte>)
    ensures 1 <= |bs| <= 4
  {
    var n := c as int;
    if n < 0x80 then [n]
    else if n < 0x800 then [0xC0 + n / 0x40, 0x80 + n % 0x40]
    else if n < 0x1_0000 then [0xE0 + n / 0x1000, 0x80 + (n / 0x40) % 0x40, 0x80 + n % 0x40]
    else [0xF0 + n / 0x4_0000, 0x80 + (n / 0x1000) % 0x40, 0x80 + (n / 0x40) % 0x40, 0x80 + n % 0x40]
  }

  /** The UTF-8 encoding of a string. */
  function Encode(s: string): (bs: seq<Byte>)
    ensures |s| <= |bs| <= 4 * |s|
  {
    if |s| == 0 then [] else EncodeChar(s[0]) + Encode(s[1..])
  }

  /** The name the filename builder works with: the Latin-1 bytes of the
      header text, decoded as UTF-8. */
  function FromLatin1AsUtf8(s: string): string {
    Decode(Latin1Bytes(s))
  }

  predicate IsAscii(s: string) {
    forall i :: 0 <= i < |s| ==> (s[i] as int) < 0x80
  }

  /** Decoding the front of an encoded character gives back that character and
      consumes exactly its bytes. */
  lemma DecodeStepOfEncoded(c: char, rest: seq<Byte>)
    ensures DecodeStep(EncodeChar(c) + rest) == Step(c, |EncodeChar(c)|)
  {
    var n := c as int;
    if n < 0x80 {
    } else if n < 0x800 {
      DecodeStepOfTwo(c, rest);
    } else if n < 0x1_0000 {
      DecodeStepOfThree(c, rest);
    } else {
      DecodeStepOfFour(c, rest);
    }
  }

  lemma DecodeStepOfTwo(c: char, rest: seq<Byte>)
    requires 0x80 <= c as int < 0x800
    ensures DecodeStep(EncodeChar(c) + rest) == Step(c, 2)
  {
    var n := c as int;
    var bs: seq<int> := EncodeChar(c) + rest;
    var d0, d1 := n / 0x40, n % 0x40;
    assert bs[0] == 0xC0 + d0 && bs[1] == 0x80 + d1;
    assert d0 * 0x40 + d1 == n;
  }

  lemma DecodeStepOfThree(c: char, rest: seq<Byte>)
    requires 0x800 <= c as int < 0x1_0000
    ensures DecodeStep(EncodeChar(c) + rest) == Step(c, 3)
  {
    var n := c as int;
    var bs: seq<int> := EncodeChar(c) + rest;
    var q := n / 0x40;
    var d0, d1, d2 := n / 0x1000, q % 0x40, n % 0x40;
    assert n == q * 0x40 + d2;
    assert q == d0 * 0x40 + d1;
    assert n == d0 * 0x1000 + d1 * 0x40 + d2;
    assert bs[0] == 0xE0 + d0 && bs[1] == 0x80 + d1 && bs[2] == 0x80 + d2;
    assert d0 == 0 ==> d1 >= 0x20;
    assert d0 == 0xD ==> d1 < 0x20;
  }

  lemma DecodeStepOfFour(c: char, rest: seq<Byte>)
    requires 0x1_0000 <= c as int
    ensures DecodeStep(EncodeChar(c) + rest) == Step(c, 4)
  {
    var n := c as int;
    var bs: seq<int> := EncodeChar(c) + rest;
    var d0, d1, d2, d3 := n / 0x4_0000, (n / 0x1000) % 0x40, (n / 0x40) % 0x40, n % 0x40;
    FourByteDigits(n);
    assert bs[0] == 0xF0 + d0 && bs[1] == 0x80 + d1;
    assert bs[2] == 0x80 + d2 && bs[3] == 0x80 + d3;
  }

  /** The digit arithmetic behind the four-byte form. */
  lemma FourByteDigits(n: int)
    requires 0x1_0000 <= n < 0x11_0000
    ensures n == (n / 0x4_0000) * 0x4_0000 + ((n / 0x1000) % 0x40) * 0x1000
                 + ((n / 0x40) % 0x40) * 0x40 + n % 0x40
    ensures n / 0x4_0000 == 0 ==> (n / 0x1000) % 0x40 >= 0x10
    ensures n / 0x4_0000 == 4 ==> (n / 0x1000) % 0x40 < 0x10
    ensures n / 0x4_0000 <= 4
  {
    var q := n / 0x40;
    var p := n / 0x1000;
    assert n == q * 0x40 + n % 0x40;
    assert q == p * 0x40 + q % 0x40;
    assert p == (n / 0x4_0000) * 0x40 + p % 0x40;
  }

  /** Decoding inverts encoding for every string (RFC 3629 round trip). */
  lemma {:induction false} DecodeEncode(s: string)
    ensures Decode(Encode(s)) == s
    decreases |s|
  {
    if |s| > 0 {
      assert Encode(s) == EncodeChar(s[0]) + Encode(s[1..]);
      DecodeOfEncodedFront(s[0], Encode(s[1..]));
      DecodeEncode(s[1..]);
      assert s == [s[0]] + s[1..];
    }
  }

  /** Decoding text that starts with an encoded character yields that
      character, then the decoding of what follows it. */
  lemma DecodeOfEncodedFront(c: char, rest: seq<Byte>)
    ensures Decode(EncodeChar(c) + rest) == [c] + Decode(rest)
  {
    var bs := EncodeChar(c) + rest;
    DecodeStepOfEncoded(c, rest);
    assert bs[|EncodeChar(c)|..] == rest;
  }

  /** For ASCII text, the Latin-1 bytes are already its UTF-8 encoding. */
  lemma {:induction false} Latin1BytesOfAscii(s: string)
    requires IsAscii(s)
    ensures Latin1Bytes(s) == Encode(s)
    decreases |s|
  {
    if |s| > 0 {
      assert IsAscii(s[1..]) by {
        forall i | 0 <= i < |s[1..]| ensures (s[1..][i] as int) < 0x80 {
          assert s[1..][i] == s[i + 1];
        }
      }
      Latin1BytesOfAscii(s[1..]);
    }
  }

  /** An ASCII-only name survives the Latin-1 to UTF-8 step unchanged. */
  lemma AsciiNameUnchanged(s: string)
    requires IsAscii(s)
    ensures FromLatin1AsUtf8(s) == s
  {
    Latin1BytesOfAscii(s);
    DecodeEncode(s);
  }

  /** Reading raw bytes as Latin-1 text and turning the text back into Latin-1
      bytes gives the raw bytes. */
  lemma Latin1BytesOfChars(bs: seq<Byte>)
    ensures Latin1Bytes(Latin1Chars(bs)) == bs
  {
    var s := Latin1Chars(bs);
    assert IsLatin1Text(s);
    var r := Latin1Bytes(s);
    assert |r| == |bs|;
    assert forall i :: 0 <= i < |bs| ==> r[i] == bs[i];
  }

  /** A name whose UTF-8 bytes the multipart parser read as Latin-1 text is
      restored to the intended name: the quirk the re-decoding repairs. */
  lemma RedecodeRepairsLatin1Reading(name: string)
    ensures FromLatin1AsUtf8(Latin1Chars(Encode(name))) == name
  {
    Latin1BytesOfChars(Encode(name));
    DecodeEncode(name);
  }
}
